=== FILE: README.md ===
# Blood-bank reservation core, modelled in Dafny

This project models the reservation core of the WebTestKhoMau blood-bank service.
The service keeps one JSON document with two lists:

- an inventory of blood-component records: ABO, Rh, ElementID, ElementName, Volume and Quantity;
- a list of patient orders, each with a header and line items (Quantity, ElementID, Volume).

The persisted file is modelled as one immutable value,
`Doc(inventory, orders)`. Every store operation that writes is a pure function from the
document before to a `Commit(ok, doc)` after it; the plain reads `Store.GetAllInventory`,
`Store.GetInventory` and `Store.GetPatientOrders` return the requested list. Every endpoint that can change the
document is a pure function from the request and the document to an
`Exchange(reply, doc)`. `InventoryController.GetInventory` only reads: it maps the
request and the document to an `InventoryResponse`, and the document stays as it was.

Modules, following the program's structure:

- `Wrappers`: `Option` and the validator's `Outcome` (Pass or Fail with an error).
- `Text`: the string primitives. These are `string.IsNullOrWhiteSpace`, `string.Trim`
  (with .NET's white-space set), and `int.TryParse`/`int.Parse` as a decimal parser
  bounded to 32 bits.
- `Sequences`: the positional edits. The store rebuilds a list by walking it with a
  running index and replacing or skipping the element whose index matches.
- `Model`: `InventoryInfo`, `OrderItem`, `PatientOrderRequest` and `Doc`.
- `Inventory`: the inventory filter of `GetInventoryAsync`, the deduction's first match
  on trimmed ABO, Rh, ElementID and exact Volume, and the deduction loop.
- `Validation`: the two phases of `ValidationService`. Phase 1 is a fail-fast
  structural check. Its errors are tagged by field and line index instead of the
  Vietnamese texts. Phase 2 is the per-line stock check.
- `Store`: the `MockDatabaseService` operations.
- `InventoryController`, `PatientOrderController`: the endpoints. They do the null
  checks, the "no filters means everything" dispatch, validate-then-deduct, and map
  results to replies.
- `Scenarios`: worked examples on a one-record inventory. Each is proved first for
  any request with the example's fields, then for the concrete request.

Two behaviours of the code as written are stated as lemmas rather than treated as
defects, because nothing in the source says they are unintended.

- Each line item is checked against the same unmodified snapshot. Two lines that draw
  on the same record can therefore together take more than it holds, and its quantity
  goes negative (`Scenarios.SplitLinesOversell`). When no two lines draw on the same
  record and the header names a blood group and an Rh factor, no record is driven
  below zero (`PatientOrderController.SavePatientNeverOversellsDistinctLines`).
- A blank BloodGroup or Rh imposes nothing in the stock check's filter. The deduction
  instead compares the fields as given. An order without a blood group is therefore
  accepted and stored, but nothing is deducted
  (`Scenarios.HeaderWithoutBloodGroupDeductsNothing`).

## Model

| member | source | states |
|---|---|---|
| Sequences.ReplaceAt | WebTestKhoMau/Services/MockDatabaseService.cs:326-343 | Walking with a running index and emitting the new item at the matching count replaces exactly element `index` when it is in range. Any other index, negative included, leaves the list as it was. |
| Sequences.RemoveAt | WebTestKhoMau/Services/MockDatabaseService.cs:379-392 | Skipping the element at the matching count removes exactly element `index` when it is in range. The result is one shorter, earlier elements are unchanged and later ones move up by one. Any other index leaves the list unchanged. |
| Text.StripSpec | WebTestKhoMau/Services/MockDatabaseService.cs:58 | Trimming gives a string whose first and last characters are not white space. It is empty exactly when the input is all white space, and it is never longer than the input. It is a contiguous slice of the input, and everything cut off before and after it is white space. |
| Text.Trim | WebTestKhoMau/Services/MockDatabaseService.cs:58 | `string.Trim()` never lengthens its input, and a non-empty result neither starts nor ends with white space. |
| Text.TrimIdempotent | WebTestKhoMau/Services/MockDatabaseService.cs:58 | Trimming twice is the same as trimming once. |
| Text.BlankIffTrimEmpty | WebTestKhoMau/Services/ValidationService.cs:21 | `IsNullOrWhiteSpace` holds for a present string exactly when trimming empties it. |
| Text.ParseInt | WebTestKhoMau/Services/ValidationService.cs:57 | A parsed value always lies in the 32-bit signed range, because out-of-range input fails. |
| Text.ParseShowRoundTrip | WebTestKhoMau/Services/ValidationService.cs:57 | The decimal rendering of every 32-bit integer parses back to that integer. |
| Inventory.FieldMatches | WebTestKhoMau/Services/MockDatabaseService.cs:56-69 | A blank criterion accepts every field. A field that meets a supplied criterion is itself present and not blank, so null and blank fields never match it. |
| Inventory.MatchesCriteria | WebTestKhoMau/Services/MockDatabaseService.cs:54-74 | With every string criterion blank and no positive volume, any record matches. A match on a supplied string criterion implies the record's field is not blank, and a positive volume must equal the record's. |
| Inventory.Filter | WebTestKhoMau/Services/MockDatabaseService.cs:46-80 | The result is an order-preserving subsequence of the inventory. Every selected record meets every supplied criterion, and every record that meets them all is selected. Blank criteria and a volume of zero or less impose nothing. |
| Inventory.FilterMultiplicities | WebTestKhoMau/Services/MockDatabaseService.cs:46-80 | The filter keeps every record that meets the criteria as many times as it occurs in the inventory, and selects nothing else. |
| Inventory.FilterAppend | WebTestKhoMau/Services/MockDatabaseService.cs:46-80 | Filtering a concatenation is concatenating the filtered parts, so records are judged one at a time and kept in list order. |
| Inventory.FilterAllBlank | WebTestKhoMau/Services/MockDatabaseService.cs:54-74 | With every string criterion blank and no positive volume, the filter returns the whole inventory, which is what `GetAllInventoryAsync` returns. |
| Inventory.NullFieldNeverMatches | WebTestKhoMau/Services/MockDatabaseService.cs:56-69 | A record whose ABO, Rh or ElementID is null is never selected by a non-blank criterion on that field. |
| Inventory.FilterIgnoresCriterionPadding | WebTestKhoMau/Services/MockDatabaseService.cs:56-59 | Criteria are compared after trimming, so trimming the ABO criterion beforehand changes nothing. |
| Inventory.KeyMatches | WebTestKhoMau/Services/MockDatabaseService.cs:591-595 | The deduction's key compares nullable trimmed strings. A null field matches only a null order field, and a blank field only a blank one, unlike the filter. The volumes must be equal. |
| Inventory.FirstMatchIndex | WebTestKhoMau/Services/MockDatabaseService.cs:591-595 | `FirstOrDefault` on the four-field key gives the position of a matching record with no matching record before it. It gives none only when no record matches. |
| Inventory.FirstWithVolume | WebTestKhoMau/Services/ValidationService.cs:148 | The result is the first filtered record with the item's volume, and there is none only when no filtered record has that volume. |
| Inventory.StockPick | WebTestKhoMau/Services/ValidationService.cs:142-148 | The record the stock check inspects is the first record in inventory order that meets the blood-group, Rh and ElementID criteria and has the item's volume. This holds whether or not those criteria are blank. There is none only when no record meeting the criteria has that volume. |
| Inventory.FirstPickable | WebTestKhoMau/Services/ValidationService.cs:142-148 | Filtering by blood group, Rh and ElementID, then taking the first record with the volume, gives a pickable record with no pickable record before it in the inventory. |
| Inventory.CriteriaAgreeWithKey | WebTestKhoMau/Services/ValidationService.cs:142-148 | Take a blood group, Rh and ElementID that are all non-blank. For one record, the stock check's filter plus its volume test then hold exactly when the deduction's key matches. |
| Inventory.StockPickIsFirstMatch | WebTestKhoMau/Services/ValidationService.cs:142-148 | With those three fields non-blank, the record the stock check inspects is the record the deduction subtracts from, in the same snapshot. |
| Inventory.Withdraw | WebTestKhoMau/Services/MockDatabaseService.cs:597-600 | Subtracting from the matched record changes no position and no field other than quantities. The matched record loses exactly the amount, and every other quantity is unchanged. With no match nothing changes. |
| Inventory.FirstMatchIgnoresQuantities | WebTestKhoMau/Services/MockDatabaseService.cs:591-595 | Two inventories that differ only in quantities have the same first match, so earlier deductions do not redirect later line items. |
| Inventory.ParsedQuantity | WebTestKhoMau/Services/MockDatabaseService.cs:587 | `int.Parse(Quantity ?? "0")` reads a null quantity as zero, and any parsed quantity is a 32-bit integer. |
| Inventory.Deduct | WebTestKhoMau/Services/MockDatabaseService.cs:583-608 | The deduction succeeds exactly when every line quantity parses, with a null quantity read as "0". On success only quantities change. |
| Inventory.DemandIgnoresQuantities | WebTestKhoMau/Services/MockDatabaseService.cs:583-608 | How much the line items take from each record does not depend on the quantities on hand. |
| Inventory.DeductExactDelta | WebTestKhoMau/Services/MockDatabaseService.cs:583-608 | Each record keeps its position and other fields. Its quantity drops by exactly the sum of the parsed quantities of the line items whose first match it is, cumulatively and with no floor at zero. |
| Inventory.UnmatchedRecordsUnchanged | WebTestKhoMau/Services/MockDatabaseService.cs:597-606 | A record that is no line item's first match comes out of the deduction unchanged. |
| Inventory.NoDemandWithoutMatch | WebTestKhoMau/Services/MockDatabaseService.cs:597-606 | Unmatched line items take nothing from any record. |
| Inventory.DemandOfSingleMatch | WebTestKhoMau/Services/MockDatabaseService.cs:583-608 | When exactly one line item matches a record first, that record loses exactly that item's quantity. |
| Validation.CheckItem | WebTestKhoMau/Services/ValidationService.cs:100-118 | A line item passes exactly when all four hold: its Quantity is non-blank, its Quantity parses to at least 1, its ElementID is non-blank, and its Volume is positive. A failure names that line's index. |
| Validation.FirstFailingLine | WebTestKhoMau/Services/ValidationService.cs:96-119 | The loop passes exactly when every line passes. Otherwise it reports the error of a failing line all of whose predecessors pass. |
| Validation.CheckItems | WebTestKhoMau/Services/ValidationService.cs:94-120 | The item phase accepts exactly when every item is well formed. Otherwise it reports the first ill-formed item's own error. |
| Validation.CheckHeader | WebTestKhoMau/Services/ValidationService.cs:21-91 | The header passes exactly under these conditions, and every failure is a header error. The conditions: PID, OrderID, PatientName and OrderDate are non-blank and the date parses. Age parses into [0, 150]. Sex is exactly "M" or "F". BloodGroup and Rh are blank or exactly one of the allowed codes. |
| Validation.CheckStructure | WebTestKhoMau/Services/ValidationService.cs:21-122 | Only an order meeting every structural requirement passes, and a failure is a header or line error. |
| Validation.StructureAcceptsExactly | WebTestKhoMau/Services/ValidationService.cs:21-122 | Phase 1 passes if and only if the order meets every structural requirement. A null or empty item list imposes nothing. |
| Validation.ValidatePatientOrder | WebTestKhoMau/Services/ValidationService.cs:15-122 | A null request is rejected first, and anything accepted is a structurally valid order. |
| Validation.FirstFailureSpec | WebTestKhoMau/Services/ValidationService.cs:21-119 | The reference semantics of an ordered check table. It passes exactly when every check holds, and otherwise reports a failing check all of whose predecessors hold. |
| Validation.CheckItemsIsFirstFailure | WebTestKhoMau/Services/ValidationService.cs:96-119 | The item loop gives the same verdict as the table listing, line by line, the checks for Quantity missing, Quantity invalid, ElementID missing and Volume invalid. |
| Validation.HeaderIsFirstFailure | WebTestKhoMau/Services/ValidationService.cs:21-91 | The header checks give the same verdict as the table of the eleven header checks in source order. |
| Validation.StructureIsFirstFailure | WebTestKhoMau/Services/ValidationService.cs:21-122 | Structural validation is fail-fast in a fixed order. Its verdict is the first failing entry of the header table followed by every line's table. |
| Validation.CheckStockItem | WebTestKhoMau/Services/ValidationService.cs:139-159 | A line passes exactly when the picked record exists and holds at least the requested quantity. It reports "not found" exactly when there is no such record. Otherwise it reports "insufficient" with the line's index, the request and what is left. |
| Validation.CheckStock | WebTestKhoMau/Services/ValidationService.cs:137-161 | The stock phase passes exactly when every line, checked on its own against the same snapshot, is in stock. |
| Validation.AcceptedQuantitiesParse | WebTestKhoMau/Services/ValidationService.cs:105 | In a structurally accepted order every quantity parses, so the later `int.Parse` calls cannot throw. |
| Validation.ValidateWithInventory | WebTestKhoMau/Services/ValidationService.cs:125-164 | A structural failure is returned unchanged, and an acceptance is a structural acceptance. After a structural pass, a failure is exactly the stock check's error for a failing line whose predecessors are all in stock. That error is not-found with the line's index, or insufficient with the index, the requested and the remaining quantity. |
| Validation.ValidateWithInventoryAccepts | WebTestKhoMau/Services/ValidationService.cs:125-164 | The two-phase validator accepts if and only if the request is present, structurally valid, and every line item is in stock. |
| Validation.DistinctLinesDemand | WebTestKhoMau/Services/ValidationService.cs:137-161 | Suppose the blood group and Rh are named, every line names an ElementID and passes the stock check on its own, and no two lines share a first match. Then what the lines take from a record is zero or at most its stock. |
| Store.AppendOrder | WebTestKhoMau/Services/MockDatabaseService.cs:139-161 | The new order goes at the end, every stored order keeps its place, and the inventory is written back unchanged. |
| Store.SavePatientOrder | WebTestKhoMau/Services/MockDatabaseService.cs:123-178 | `SavePatientOrderAsync` succeeds. The stored orders become the old orders followed by the new one, and the inventory is left as it was. |
| Store.CreatePatientOrder | WebTestKhoMau/Services/MockDatabaseService.cs:418-461 | The stored orders become the old orders followed by the new one, and the inventory is preserved. |
| Store.CreateInventory | WebTestKhoMau/Services/MockDatabaseService.cs:270-314 | The record is appended, earlier records keep their places, and the orders are preserved. |
| Store.UpdateInventory | WebTestKhoMau/Services/MockDatabaseService.cs:316-367 | Exactly the record at `index` is replaced and every other record is untouched. An out-of-range index changes nothing. The result is still success, and the orders are preserved. |
| Store.DeleteInventory | WebTestKhoMau/Services/MockDatabaseService.cs:369-416 | Exactly the record at `index` is removed when it exists. Otherwise the document is unchanged. The result is success either way, and the orders are preserved. |
| Store.UpdatePatientOrder | WebTestKhoMau/Services/MockDatabaseService.cs:463-513 | Exactly the order at `index` is replaced, other orders and the inventory are untouched, and an out-of-range index changes nothing. |
| Store.DeletePatientOrder | WebTestKhoMau/Services/MockDatabaseService.cs:515-561 | Exactly the order at `index` is removed when it exists, and the inventory is preserved. |
| Store.SaveWithDeduction | WebTestKhoMau/Services/MockDatabaseService.cs:563-636 | The result is true exactly when every line quantity parses. Otherwise nothing is written. On success the order is appended and only inventory quantities change. |
| Store.SaveWithDeductionEffect | WebTestKhoMau/Services/MockDatabaseService.cs:571-628 | On success every record keeps its position and loses exactly the quantities of the line items that first match it. |
| Store.DeleteUndoesCreateInventory | WebTestKhoMau/Services/MockDatabaseService.cs:270-416 | Deleting, at the old length, the record just created restores the document. |
| Store.DeleteUndoesCreatePatientOrder | WebTestKhoMau/Services/MockDatabaseService.cs:418-561 | Deleting the order just appended restores the document. |
| Store.UpdateInventoryIdempotent | WebTestKhoMau/Services/MockDatabaseService.cs:316-367 | Writing back the record already at a position changes nothing, and repeating an update changes nothing more. |
| InventoryController.GetInventory | WebTestKhoMau/Controllers/InventoryController.cs:27-74 | The reply is always a success with a null error. A null request returns the whole inventory. Otherwise every returned record meets the request's criteria. |
| InventoryController.GetInventoryIsFilter | WebTestKhoMau/Controllers/InventoryController.cs:32-62 | In both branches the answer equals the store's filter for the request's criteria, with a null body counting as blank criteria. The shortcut is therefore only an optimisation, and a negative volume with blank strings also returns everything. |
| InventoryController.CreateInventory | WebTestKhoMau/Controllers/InventoryController.cs:106-133 | A null body is refused with "Inventory item is required" before the store is called. Otherwise the record is appended and the reply is a success. |
| InventoryController.UpdateInventory | WebTestKhoMau/Controllers/InventoryController.cs:144-171 | A null body is refused before the store is called. Otherwise the record at the index is replaced, or nothing changes for an index out of range, and the reply is a success. |
| InventoryController.DeleteInventory | WebTestKhoMau/Controllers/InventoryController.cs:181-203 | The reply is always a success. The record at the index is removed when it exists. |
| PatientOrderController.SavePatient | WebTestKhoMau/Controllers/PatientOrderController.cs:31-95 | A null body gives "Request body is required". A refusal leaves the document unchanged. A success is structurally valid, in stock line by line, replies with an empty message, appends the order and changes only quantities. |
| PatientOrderController.SavePatientAccepts | WebTestKhoMau/Controllers/PatientOrderController.cs:47-82 | SavePatient succeeds if and only if the order is present, structurally valid and in stock line by line. Once validation has passed the deduction cannot fail, so "Failed to save patient order" is never the reply. |
| PatientOrderController.SavePatientReportsFirstError | WebTestKhoMau/Controllers/PatientOrderController.cs:47-58 | A structurally invalid order is answered with the validator's first error, and the document is unchanged. |
| PatientOrderController.SavePatientReportsValidationError | WebTestKhoMau/Controllers/PatientOrderController.cs:47-58 | Whichever phase of validation rejects the order, structural or stock, the reply is a failure carrying that error, and the document is unchanged. |
| PatientOrderController.SavePatientCommits | WebTestKhoMau/Controllers/PatientOrderController.cs:47-73 | An order that passes both validation phases is stored through the save-with-deduction operation, and the reply is a success with an empty message. |
| PatientOrderController.SavePatientDeducts | WebTestKhoMau/Controllers/PatientOrderController.cs:63-73 | An accepted order lowers each record by exactly the quantities of the line items that first match it, and changes nothing else in the inventory. |
| PatientOrderController.SavePatientLeavesUnmatched | WebTestKhoMau/Controllers/PatientOrderController.cs:63-73 | A record that no line item matches first is left exactly as it was. |
| PatientOrderController.SavePatientNeverOversellsDistinctLines | WebTestKhoMau/Controllers/PatientOrderController.cs:47-73 | Suppose the blood group and Rh are named and no two lines take from the same record. Then every record an accepted order touches stays at zero or above. |
| PatientOrderController.CreatePatientOrder | WebTestKhoMau/Controllers/PatientOrderController.cs:129-164 | Only structural validation runs. Success holds exactly for a present, structurally valid order, which is appended. A present but invalid order is refused with the structural validator's own error. The inventory is never touched, and a refusal changes nothing. |
| PatientOrderController.UpdatePatientOrder | WebTestKhoMau/Controllers/PatientOrderController.cs:175-210 | Only structural validation runs. A valid order replaces the one at the index, or nothing changes for an index out of range. A present but invalid order is refused with the structural validator's own error, and nothing changes. The inventory is never touched. |
| PatientOrderController.DeletePatientOrder | WebTestKhoMau/Controllers/PatientOrderController.cs:220-242 | No validation runs and the reply is always a success. The order at the index is removed when it exists, and the inventory is never touched. |
| Scenarios.FilledOrder | WebTestKhoMau/Services/MockDatabaseService.cs:600 | On one O+ RBC 250 ml record of 5, an order for "2" is accepted and stored, and the record is left at 3. |
| Scenarios.OverdrawnOrder | WebTestKhoMau/Services/ValidationService.cs:155-159 | The same record and an order for "10" are rejected as insufficient, with line 0, 10 requested and 5 left. Nothing is written. |
| Scenarios.UnknownSexCode | WebTestKhoMau/Services/ValidationService.cs:69-72 | A sex code "X" is rejected as an invalid Sex before any stock is looked at, and nothing is written. |
| Scenarios.SplitLinesOversell | WebTestKhoMau/Services/ValidationService.cs:137-161 | Two lines of "3" against a stock of 5 each pass the stock check on their own. The order is accepted and the record drops to -1. |
| Scenarios.HeaderWithoutBloodGroupDeductsNothing | WebTestKhoMau/Services/MockDatabaseService.cs:591-595 | With no blood group and no Rh, the stock check finds the O+ record but the deduction matches nothing. The order is accepted and stored with the inventory unchanged. |

## Left out

- Reading, parsing and writing the JSON file are left out. A document is one value, read and written atomically, and null list entries, which the decoder drops, are assumed absent. As a result the CRUD operations never return false, since only an I/O or JSON exception makes them fail.
- `SavePatientOrderAsync` writes `{}` when the file has no "Inventory" property. This is a serialisation detail; the model keeps the inventory list as it was.
- `GetAllDataAsync` and the `GetAllData` endpoint are left out. They only project the document into lower-case JSON keys.
- The `GetPatientOrders` endpoint and `Store.GetAllInventory`, `Store.GetInventory` and `Store.GetPatientOrders` are plain reads. Their content is stated by `Inventory.Filter` and the document itself, so they carry no contract of their own.
- Null line items inside a request's ListOrder are not modelled: a line item is always present. In the source, reading `item.Quantity` of a null item throws a NullReferenceException (WebTestKhoMau/Services/ValidationService.cs:98-100). The endpoint's catch-all (WebTestKhoMau/Controllers/PatientOrderController.cs:84-93) turns it into a failed reply, and nothing is written.
- Concurrency is left out. The read-modify-write cycles can lose updates, and the validator re-reads the file once per line item. Every operation is modelled over one snapshot.
- `DateTime.TryParse` is a parameter `isDate: string -> bool`, because its culture-dependent rules are outside the model.
- Text.ParseInt: models `int.TryParse`/`int.Parse` with the default integer style. That means ASCII white space around the number, one optional sign, decimal digits and the 32-bit range. Culture-specific signs and trailing NUL characters are not modelled.
- Inventory.Withdraw: quantities are unbounded integers, so the 32-bit wrap-around of `Quantity -= requested` on extreme values is not modelled.
- Logging is left out: `ILogger` calls and the audit log written by LogService.
- Program.cs is not part of this model: service wiring, CORS, Swagger and the HTTP pipeline.
- HTTP status codes, the `ex.Message` replies of the catch-all handlers, and the "Message" texts of successful replies are left out.
- The validator's Vietnamese message texts are replaced by a `ValidationError` datatype that is tagged with the field, the problem and the line index, and the stock errors carry the requested and available quantities.

=== FILE: inventory.dfy ===
/** Filtering, first-match lookup and stock deduction over the inventory list
    (WebTestKhoMau/Services/MockDatabaseService.cs). */
module Inventory {
  import opened Wrappers
  import opened Text
  import opened Sequences
  import opened Model

  // ------------------------------------------------------------------ filter

  /** One string criterion of the filter: a blank criterion imposes nothing;
      otherwise the record's field must be present and equal to the criterion
      once both are trimmed. */
  predicate FieldMatches(field: Option<string>, criterion: Option<string>): (b: bool)
    ensures IsBlank(criterion) ==> b
    ensures b && !IsBlank(criterion) ==> !IsBlank(field)
  {
    if IsBlank(criterion) then true
    else if field.None? then false
    else
      BlankIffTrimEmpty(field.value);
      BlankIffTrimEmpty(criterion.value);
      Trim(field.value) == Trim(criterion.value)
  }

  /** All four criteria of GetInventoryAsync; a volume of zero or less imposes nothing. */
  predicate MatchesCriteria(rec: InventoryInfo, abo: Option<string>, rh: Option<string>, elementId: Option<string>, volume: int): (b: bool)
    ensures IsBlank(abo) && IsBlank(rh) && IsBlank(elementId) && volume <= 0 ==> b
    ensures b && !IsBlank(abo) ==> !IsBlank(rec.abo)
    ensures b && !IsBlank(rh) ==> !IsBlank(rec.rh)
    ensures b && !IsBlank(elementId) ==> !IsBlank(rec.elementId)
    ensures b && volume > 0 ==> rec.volume == volume
  {
    && FieldMatches(rec.abo, abo)
    && FieldMatches(rec.rh, rh)
    && FieldMatches(rec.elementId, elementId)
    && (volume <= 0 || rec.volume == volume)
  }

  /** GetInventoryAsync over one snapshot of the inventory: the records that
      satisfy every supplied criterion, in list order. */
  function Filter(inv: seq<InventoryInfo>, abo: Option<string>, rh: Option<string>, elementId: Option<string>, volume: int): (r: seq<InventoryInfo>)
    ensures IsSubsequence(r, inv)
    ensures forall x :: x in r ==> MatchesCriteria(x, abo, rh, elementId, volume)
    ensures forall k :: 0 <= k < |inv| && MatchesCriteria(inv[k], abo, rh, elementId, volume) ==> inv[k] in r
    decreases |inv|
  {
    if |inv| == 0 then []
    else
      var rest := Filter(inv[1..], abo, rh, elementId, volume);
      assert forall k :: 1 <= k < |inv| ==> inv[k] == inv[1..][k - 1];
      if MatchesCriteria(inv[0], abo, rh, elementId, volume) then [inv[0]] + rest else rest
  }

  /** The filter keeps every matching record as many times as it occurs in the
      inventory, and no other record. */
  lemma {:induction false} FilterMultiplicities(inv: seq<InventoryInfo>, abo: Option<string>, rh: Option<string>, elementId: Option<string>, volume: int)
    ensures var r := Filter(inv, abo, rh, elementId, volume);
      forall x :: multiset(r)[x] == if MatchesCriteria(x, abo, rh, elementId, volume) then multiset(inv)[x] else 0
    decreases |inv|
  {
    if |inv| > 0 {
      FilterMultiplicities(inv[1..], abo, rh, elementId, volume);
      assert inv == [inv[0]] + inv[1..];
    }
  }

  /** Filtering distributes over concatenation; together with the one-element
      case this pins the filter down as the order-preserving selection. */
  lemma {:induction false} FilterAppend(a: seq<InventoryInfo>, b: seq<InventoryInfo>, abo: Option<string>, rh: Option<string>, elementId: Option<string>, volume: int)
    ensures Filter(a + b, abo, rh, elementId, volume) == Filter(a, abo, rh, elementId, volume) + Filter(b, abo, rh, elementId, volume)
    decreases |a|
  {
    if |a| == 0 {
      assert a + b == b;
    } else {
      assert (a + b)[0] == a[0];
      assert (a + b)[1..] == a[1..] + b;
      FilterAppend(a[1..], b, abo, rh, elementId, volume);
    }
  }

  /** With every string criterion blank and no positive volume, the filter
      returns the whole inventory, exactly what GetAllInventoryAsync returns. */
  lemma {:induction false} FilterAllBlank(inv: seq<InventoryInfo>, abo: Option<string>, rh: Option<string>, elementId: Option<string>, volume: int)
    requires IsBlank(abo) && IsBlank(rh) && IsBlank(elementId) && volume <= 0
    ensures Filter(inv, abo, rh, elementId, volume) == inv
    decreases |inv|
  {
    if |inv| > 0 {
      FilterAllBlank(inv[1..], abo, rh, elementId, volume);
    }
  }

  /** A record whose field is null is never selected by a non-blank criterion on that field. */
  lemma NullFieldNeverMatches(inv: seq<InventoryInfo>, abo: Option<string>, rh: Option<string>, elementId: Option<string>, volume: int, rec: InventoryInfo)
    requires (rec.abo.None? && !IsBlank(abo)) || (rec.rh.None? && !IsBlank(rh)) || (rec.elementId.None? && !IsBlank(elementId))
    ensures rec !in Filter(inv, abo, rh, elementId, volume)
  {
  }

  /** Criteria are compared trimmed: trimming a criterion beforehand changes nothing. */
  lemma {:induction false} FilterIgnoresCriterionPadding(inv: seq<InventoryInfo>, abo: string, rh: Option<string>, elementId: Option<string>, volume: int)
    ensures Filter(inv, Some(Trim(abo)), rh, elementId, volume) == Filter(inv, Some(abo), rh, elementId, volume)
    decreases |inv|
  {
    TrimIdempotent(abo);
    BlankIffTrimEmpty(abo);
    BlankIffTrimEmpty(Trim(abo));
    if |inv| > 0 {
      FilterIgnoresCriterionPadding(inv[1..], abo, rh, elementId, volume);
    }
  }

  // ------------------------------------------------------------- first match

  /** The deduction's match: ABO and Rh against the order header, ElementID and
      Volume against the line item, strings compared as `a?.Trim() == b?.Trim()`
      (so two nulls are equal, and a null never equals a string). */
  predicate KeyMatches(rec: InventoryInfo, bloodGroup: Option<string>, rh: Option<string>, item: OrderItem): (b: bool)
    ensures b ==> (rec.abo.None? <==> bloodGroup.None?) && (IsBlank(rec.abo) <==> IsBlank(bloodGroup))
    ensures b ==> (rec.rh.None? <==> rh.None?) && (IsBlank(rec.rh) <==> IsBlank(rh))
    ensures b ==> (rec.elementId.None? <==> item.elementId.None?) && (IsBlank(rec.elementId) <==> IsBlank(item.elementId))
    ensures b ==> rec.volume == item.volume
  {
    SameTrimSameBlank(rec.abo, bloodGroup);
    SameTrimSameBlank(rec.rh, rh);
    SameTrimSameBlank(rec.elementId, item.elementId);
    && TrimOpt(rec.abo) == TrimOpt(bloodGroup)
    && TrimOpt(rec.rh) == TrimOpt(rh)
    && TrimOpt(rec.elementId) == TrimOpt(item.elementId)
    && rec.volume == item.volume
  }

  /** `FirstOrDefault` with KeyMatches: the position of the first matching record, if any. */
  function FirstMatchIndex(inv: seq<InventoryInfo>, bloodGroup: Option<string>, rh: Option<string>, item: OrderItem): (r: Option<nat>)
    ensures r.Some? ==> r.value < |inv| && KeyMatches(inv[r.value], bloodGroup, rh, item)
    ensures r.Some? ==> forall k :: 0 <= k < r.value ==> !KeyMatches(inv[k], bloodGroup, rh, item)
    ensures r.None? ==> forall k :: 0 <= k < |inv| ==> !KeyMatches(inv[k], bloodGroup, rh, item)
    decreases |inv|
  {
    if |inv| == 0 then None
    else if KeyMatches(inv[0], bloodGroup, rh, item) then Some(0)
    else
      match FirstMatchIndex(inv[1..], bloodGroup, rh, item)
      case None => None
      case Some(j) => Some(j + 1)
  }

  /** `FirstOrDefault(inv => inv.Volume == volume)` over an already filtered list. */
  function FirstWithVolume(s: seq<InventoryInfo>, volume: int): (r: Option<InventoryInfo>)
    ensures r.None? ==> forall k :: 0 <= k < |s| ==> s[k].volume != volume
    ensures r.Some? ==> exists k :: 0 <= k < |s| && s[k] == r.value && s[k].volume == volume && forall j :: 0 <= j < k ==> s[j].volume != volume
    decreases |s|
  {
    if |s| == 0 then None
    else if s[0].volume == volume then Some(s[0])
    else
      var r := FirstWithVolume(s[1..], volume);
      assert r.Some? ==> exists k :: 0 <= k < |s| && s[k] == r.value && forall j :: 0 <= j < k ==> s[j].volume != volume by {
        if r.Some? {
          var k :| 0 <= k < |s[1..]| && s[1..][k] == r.value && forall j :: 0 <= j < k ==> s[1..][j].volume != volume;
          assert s[k + 1] == r.value;
          assert forall j :: 1 <= j < k + 1 ==> s[j] == s[1..][j - 1];
        }
      }
      r
  }

  /** The record the stock check inspects for a line item: filter by the order's
      blood group and Rh and the item's ElementID (no volume criterion), then
      take the first with the item's volume. */
  function StockPick(inv: seq<InventoryInfo>, bloodGroup: Option<string>, rh: Option<string>, item: OrderItem): (r: Option<InventoryInfo>)
    ensures r.Some? ==> r.value in inv && MatchesCriteria(r.value, bloodGroup, rh, item.elementId, 0) && r.value.volume == item.volume
    ensures r.None? ==> forall k :: 0 <= k < |inv| && MatchesCriteria(inv[k], bloodGroup, rh, item.elementId, 0) ==> inv[k].volume != item.volume
    ensures r.Some? ==>
      exists k :: 0 <= k < |inv| && inv[k] == r.value && Pickable(inv[k], bloodGroup, rh, item)
        && forall j :: 0 <= j < k ==> !Pickable(inv[j], bloodGroup, rh, item)
  {
    var selected := Filter(inv, bloodGroup, rh, item.elementId, 0);
    var r := FirstWithVolume(selected, item.volume);
    FilterMultiplicities(inv, bloodGroup, rh, item.elementId, 0);
    assert r.Some? ==> multiset(selected)[r.value] > 0;
    FirstPickable(inv, bloodGroup, rh, item);
    r
  }

  /** A record the stock check may pick for a line item: it meets the blood
      group, Rh and ElementID criteria and has the item's volume. */
  predicate Pickable(rec: InventoryInfo, bloodGroup: Option<string>, rh: Option<string>, item: OrderItem) {
    MatchesCriteria(rec, bloodGroup, rh, item.elementId, 0) && rec.volume == item.volume
  }

  /** One step of the stock pick: the head record is taken when it is pickable,
      otherwise the pick comes from the rest of the inventory. */
  lemma PickStep(inv: seq<InventoryInfo>, bloodGroup: Option<string>, rh: Option<string>, item: OrderItem)
    requires |inv| > 0
    ensures FirstWithVolume(Filter(inv, bloodGroup, rh, item.elementId, 0), item.volume)
      == if Pickable(inv[0], bloodGroup, rh, item) then Some(inv[0])
         else FirstWithVolume(Filter(inv[1..], bloodGroup, rh, item.elementId, 0), item.volume)
  {
    var rest := Filter(inv[1..], bloodGroup, rh, item.elementId, 0);
    if MatchesCriteria(inv[0], bloodGroup, rh, item.elementId, 0) {
      assert Filter(inv, bloodGroup, rh, item.elementId, 0) == [inv[0]] + rest;
      assert ([inv[0]] + rest)[1..] == rest;
    }
  }

  /** Filtering first and then taking the first record with the volume picks the
      first pickable record in inventory order. */
  lemma {:induction false} FirstPickable(inv: seq<InventoryInfo>, bloodGroup: Option<string>, rh: Option<string>, item: OrderItem)
    ensures var r := FirstWithVolume(Filter(inv, bloodGroup, rh, item.elementId, 0), item.volume);
      r.Some? ==>
        exists k :: 0 <= k < |inv| && inv[k] == r.value && Pickable(inv[k], bloodGroup, rh, item)
          && forall j :: 0 <= j < k ==> !Pickable(inv[j], bloodGroup, rh, item)
    decreases |inv|
  {
    if |inv| > 0 {
      PickStep(inv, bloodGroup, rh, item);
      FirstPickable(inv[1..], bloodGroup, rh, item);
      var r := FirstWithVolume(Filter(inv[1..], bloodGroup, rh, item.elementId, 0), item.volume);
      if !Pickable(inv[0], bloodGroup, rh, item) && r.Some? {
        var k :| 0 <= k < |inv[1..]| && inv[1..][k] == r.value && Pickable(inv[1..][k], bloodGroup, rh, item)
          && forall j :: 0 <= j < k ==> !Pickable(inv[1..][j], bloodGroup, rh, item);
        assert inv[k + 1] == r.value;
        assert forall j :: 1 <= j < k + 1 ==> inv[j] == inv[1..][j - 1];
      }
    }
  }


  /** The record found by FirstMatchIndex, if any. */
  function FirstMatch(inv: seq<InventoryInfo>, bloodGroup: Option<string>, rh: Option<string>, item: OrderItem): Option<InventoryInfo> {
    match FirstMatchIndex(inv, bloodGroup, rh, item)
    case None => None
    case Some(j) => Some(inv[j])
  }

  /** For one record, the filter criteria plus the volume test agree with the deduction's key. */
  lemma CriteriaAgreeWithKey(rec: InventoryInfo, bloodGroup: Option<string>, rh: Option<string>, item: OrderItem)
    requires !IsBlank(bloodGroup) && !IsBlank(rh) && !IsBlank(item.elementId)
    ensures MatchesCriteria(rec, bloodGroup, rh, item.elementId, 0) && rec.volume == item.volume
      <==> KeyMatches(rec, bloodGroup, rh, item)
  {
  }

  /** With blood group, Rh and ElementID all non-blank, the stock check and the
      deduction look at the same record of the same snapshot. */
  lemma {:induction false} StockPickIsFirstMatch(inv: seq<InventoryInfo>, bloodGroup: Option<string>, rh: Option<string>, item: OrderItem)
    requires !IsBlank(bloodGroup) && !IsBlank(rh) && !IsBlank(item.elementId)
    ensures StockPick(inv, bloodGroup, rh, item) == FirstMatch(inv, bloodGroup, rh, item)
    decreases |inv|
  {
    if |inv| > 0 {
      StockPickIsFirstMatch(inv[1..], bloodGroup, rh, item);
      CriteriaAgreeWithKey(inv[0], bloodGroup, rh, item);
      var rest := Filter(inv[1..], bloodGroup, rh, item.elementId, 0);
      var tail := FirstMatchIndex(inv[1..], bloodGroup, rh, item);
      if MatchesCriteria(inv[0], bloodGroup, rh, item.elementId, 0) {
        assert Filter(inv, bloodGroup, rh, item.elementId, 0) == [inv[0]] + rest;
        assert ([inv[0]] + rest)[1..] == rest;
      } else {
        assert Filter(inv, bloodGroup, rh, item.elementId, 0) == rest;
      }
      if tail.Some? {
        assert inv[1..][tail.value] == inv[tail.value + 1];
      }
    }
  }

  // --------------------------------------------------------------- deduction

  /** `int.Parse(item.Quantity ?? "0")`: a null quantity counts as zero; None where Parse throws. */
  function ParsedQuantity(item: OrderItem): (r: Option<int>)
    ensures r.Some? ==> Int32Min <= r.value <= Int32Max
    ensures item.quantity.None? ==> r == Some(0)
  {
    ParseInt(item.quantity.GetOr("0"))
  }

  predicate AllQuantitiesParse(items: seq<OrderItem>) {
    forall k :: 0 <= k < |items| ==> ParsedQuantity(items[k]).Some?
  }

  /** `b` is `a` with at most the quantities changed. */
  predicate OnlyQuantitiesDiffer(a: seq<InventoryInfo>, b: seq<InventoryInfo>) {
    |a| == |b| && forall j :: 0 <= j < |a| ==> b[j] == a[j].(quantity := b[j].quantity)
  }

  /** Subtract `amount` from the record at `at`, if there is one. */
  function Withdraw(inv: seq<InventoryInfo>, at: Option<nat>, amount: int): (r: seq<InventoryInfo>)
    requires at.Some? ==> at.value < |inv|
    ensures OnlyQuantitiesDiffer(inv, r)
    ensures forall j :: 0 <= j < |inv| ==> r[j].quantity == inv[j].quantity - (if at == Some(j) then amount else 0)
  {
    match at
    case None => inv
    case Some(j) => inv[j := inv[j].(quantity := inv[j].quantity - amount)]
  }

  /** Records that differ only in quantity have the same first match. */
  lemma {:induction false} FirstMatchIgnoresQuantities(a: seq<InventoryInfo>, b: seq<InventoryInfo>, bloodGroup: Option<string>, rh: Option<string>, item: OrderItem)
    requires OnlyQuantitiesDiffer(a, b)
    ensures FirstMatchIndex(a, bloodGroup, rh, item) == FirstMatchIndex(b, bloodGroup, rh, item)
    decreases |a|
  {
    if |a| > 0 {
      assert KeyMatches(a[0], bloodGroup, rh, item) <==> KeyMatches(b[0], bloodGroup, rh, item);
      assert OnlyQuantitiesDiffer(a[1..], b[1..]) by {
        assert forall j :: 0 <= j < |a| - 1 ==> a[1..][j] == a[j + 1] && b[1..][j] == b[j + 1];
      }
      FirstMatchIgnoresQuantities(a[1..], b[1..], bloodGroup, rh, item);
    }
  }

  /** The deduction loop of SavePatientOrderWithInventoryDeductionAsync, over the
      line items in order: parse the quantity (failing the whole operation if it
      does not parse), then subtract it from the first record matching on the
      four-field key, without any sufficiency check; unmatched items are skipped. */
  function Deduct(inv: seq<InventoryInfo>, bloodGroup: Option<string>, rh: Option<string>, items: seq<OrderItem>): (r: Option<seq<InventoryInfo>>)
    ensures r.Some? <==> AllQuantitiesParse(items)
    ensures r.Some? ==> OnlyQuantitiesDiffer(inv, r.value)
    decreases |items|
  {
    if |items| == 0 then Some(inv)
    else
      match ParsedQuantity(items[0])
      case None => None
      case Some(amount) =>
        var next := Withdraw(inv, FirstMatchIndex(inv, bloodGroup, rh, items[0]), amount);
        var r := Deduct(next, bloodGroup, rh, items[1..]);
        assert AllQuantitiesParse(items) <==> AllQuantitiesParse(items[1..]) by {
          assert forall k :: 1 <= k < |items| ==> items[k] == items[1..][k - 1];
        }
        r
  }

  /** The total quantity the line items take from the record at position `j`:
      each item contributes its parsed quantity when `j` is its first match. */
  function Demand(inv: seq<InventoryInfo>, bloodGroup: Option<string>, rh: Option<string>, items: seq<OrderItem>, j: nat): int
    decreases |items|
  {
    if |items| == 0 then 0
    else
      (if FirstMatchIndex(inv, bloodGroup, rh, items[0]) == Some(j) then ParsedQuantity(items[0]).GetOr(0) else 0)
      + Demand(inv, bloodGroup, rh, items[1..], j)
  }

  lemma {:induction false} DemandIgnoresQuantities(a: seq<InventoryInfo>, b: seq<InventoryInfo>, bloodGroup: Option<string>, rh: Option<string>, items: seq<OrderItem>, j: nat)
    requires OnlyQuantitiesDiffer(a, b)
    ensures Demand(a, bloodGroup, rh, items, j) == Demand(b, bloodGroup, rh, items, j)
    decreases |items|
  {
    if |items| > 0 {
      FirstMatchIgnoresQuantities(a, b, bloodGroup, rh, items[0]);
      DemandIgnoresQuantities(a, b, bloodGroup, rh, items[1..], j);
    }
  }

  /** Exact effect of the deduction: every record keeps its position and all
      fields but the quantity, and its quantity drops by exactly the total of
      the line items whose first match it is (cumulatively, possibly below zero). */
  lemma {:induction false} DeductExactDelta(inv: seq<InventoryInfo>, bloodGroup: Option<string>, rh: Option<string>, items: seq<OrderItem>)
    requires AllQuantitiesParse(items)
    ensures Deduct(inv, bloodGroup, rh, items).Some?
    ensures var r := Deduct(inv, bloodGroup, rh, items).value;
      |r| == |inv| &&
      forall j :: 0 <= j < |inv| ==> r[j] == inv[j].(quantity := inv[j].quantity - Demand(inv, bloodGroup, rh, items, j))
    decreases |items|
  {
    if |items| > 0 {
      var amount := ParsedQuantity(items[0]).value;
      var next := Withdraw(inv, FirstMatchIndex(inv, bloodGroup, rh, items[0]), amount);
      assert AllQuantitiesParse(items[1..]) by {
        assert forall k :: 1 <= k < |items| ==> items[k] == items[1..][k - 1];
      }
      DeductExactDelta(next, bloodGroup, rh, items[1..]);
      forall j | 0 <= j < |inv|
        ensures Deduct(inv, bloodGroup, rh, items).value[j]
             == inv[j].(quantity := inv[j].quantity - Demand(inv, bloodGroup, rh, items, j))
      {
        DeductStep(inv, bloodGroup, rh, items, j);
      }
    }
  }

  /** One step of DeductExactDelta: the first item's withdrawal, then the rest. */
  lemma DeductStep(inv: seq<InventoryInfo>, bloodGroup: Option<string>, rh: Option<string>, items: seq<OrderItem>, j: nat)
    requires |items| > 0 && AllQuantitiesParse(items) && j < |inv|
    requires var next := Withdraw(inv, FirstMatchIndex(inv, bloodGroup, rh, items[0]), ParsedQuantity(items[0]).value);
      var r := Deduct(next, bloodGroup, rh, items[1..]);
      r.Some? && |r.value| == |next| &&
      r.value[j] == next[j].(quantity := next[j].quantity - Demand(next, bloodGroup, rh, items[1..], j))
    ensures Deduct(inv, bloodGroup, rh, items).value[j]
         == inv[j].(quantity := inv[j].quantity - Demand(inv, bloodGroup, rh, items, j))
  {
    var at := FirstMatchIndex(inv, bloodGroup, rh, items[0]);
    var amount := ParsedQuantity(items[0]).value;
    var next := Withdraw(inv, at, amount);
    DeductUnfold(inv, bloodGroup, rh, items);
    var own := if at == Some(j) then amount else 0;
    assert Demand(inv, bloodGroup, rh, items, j) == own + Demand(inv, bloodGroup, rh, items[1..], j);
    assert next[j] == inv[j].(quantity := inv[j].quantity - own);
    DemandIgnoresQuantities(inv, next, bloodGroup, rh, items[1..], j);
  }

  lemma DeductUnfold(inv: seq<InventoryInfo>, bloodGroup: Option<string>, rh: Option<string>, items: seq<OrderItem>)
    requires |items| > 0 && ParsedQuantity(items[0]).Some?
    ensures Deduct(inv, bloodGroup, rh, items)
         == Deduct(Withdraw(inv, FirstMatchIndex(inv, bloodGroup, rh, items[0]), ParsedQuantity(items[0]).value), bloodGroup, rh, items[1..])
  {
  }

  /** A record that no line item matches first keeps its quantity. */
  lemma UnmatchedRecordsUnchanged(inv: seq<InventoryInfo>, bloodGroup: Option<string>, rh: Option<string>, items: seq<OrderItem>, j: nat)
    requires AllQuantitiesParse(items)
    requires j < |inv|
    requires forall k :: 0 <= k < |items| ==> FirstMatchIndex(inv, bloodGroup, rh, items[k]) != Some(j)
    ensures Deduct(inv, bloodGroup, rh, items).Some?
    ensures Deduct(inv, bloodGroup, rh, items).value[j] == inv[j]
  {
    DeductExactDelta(inv, bloodGroup, rh, items);
    NoDemandWithoutMatch(inv, bloodGroup, rh, items, j);
  }

  lemma {:induction false} NoDemandWithoutMatch(inv: seq<InventoryInfo>, bloodGroup: Option<string>, rh: Option<string>, items: seq<OrderItem>, j: nat)
    requires forall k :: 0 <= k < |items| ==> FirstMatchIndex(inv, bloodGroup, rh, items[k]) != Some(j)
    ensures Demand(inv, bloodGroup, rh, items, j) == 0
    decreases |items|
  {
    if |items| > 0 {
      assert forall k :: 1 <= k < |items| ==> items[k] == items[1..][k - 1];
      NoDemandWithoutMatch(inv, bloodGroup, rh, items[1..], j);
    }
  }

  /** A record that exactly one line item matches first loses exactly that
      item's quantity. */
  lemma {:induction false} DemandOfSingleMatch(inv: seq<InventoryInfo>, bloodGroup: Option<string>, rh: Option<string>, items: seq<OrderItem>, j: nat, k: nat)
    requires k < |items| && FirstMatchIndex(inv, bloodGroup, rh, items[k]) == Some(j)
    requires forall i :: 0 <= i < |items| && i != k ==> FirstMatchIndex(inv, bloodGroup, rh, items[i]) != Some(j)
    ensures Demand(inv, bloodGroup, rh, items, j) == ParsedQuantity(items[k]).GetOr(0)
    decreases |items|
  {
    var rest := items[1..];
    assert Demand(inv, bloodGroup, rh, items, j)
        == (if FirstMatchIndex(inv, bloodGroup, rh, items[0]) == Some(j) then ParsedQuantity(items[0]).GetOr(0) else 0)
           + Demand(inv, bloodGroup, rh, rest, j);
    forall i | 0 <= i < |rest|
      ensures rest[i] == items[i + 1]
    {
    }
    if k == 0 {
      NoDemandWithoutMatch(inv, bloodGroup, rh, rest, j);
    } else {
      DemandOfSingleMatch(inv, bloodGroup, rh, rest, j, k - 1);
    }
  }
}

=== FILE: inventory_controller.dfy ===
/** The inventory endpoints (WebTestKhoMau/Controllers/InventoryController.cs):
    each takes the request and the stored document and gives back the reply
    and the document as it is afterwards. */
module InventoryController {
  import opened Wrappers
  import opened Text
  import opened Model
  import opened Inventory
  import Store

  /** The body of `POST GetInventory`; every field may be missing. */
  datatype InventoryRequest = InventoryRequest(
    abo: Option<string>,
    rh: Option<string>,
    elementId: Option<string>,
    volume: int)

  datatype InventoryResponse = InventoryResponse(
    errorMessage: Option<string>,
    isSuccess: bool,
    inventoryInfo: seq<InventoryInfo>)

  /** The `{ IsSuccess, ErrorMessage }` object the editing endpoints answer with. */
  datatype Reply = Reply(isSuccess: bool, errorMessage: string)

  /** A reply together with the document it leaves behind. */
  datatype Exchange = Exchange(reply: Reply, doc: Doc)

  const ItemRequired: string := "Inventory item is required"
  const CreateFailed: string := "Failed to create inventory item"
  const UpdateFailed: string := "Failed to update inventory item"
  const DeleteFailed: string := "Failed to delete inventory item"

  /** The endpoint's shortcut: no body, or three blank strings and a volume of exactly zero. */
  predicate NoFilters(request: Option<InventoryRequest>) {
    || request.None?
    || (&& IsBlank(request.value.abo) && IsBlank(request.value.rh)
        && IsBlank(request.value.elementId) && request.value.volume == 0)
  }

  /** `GetInventory`: the whole inventory when there is nothing to filter by,
      and otherwise the store's filtered read. */
  function GetInventory(d: Doc, request: Option<InventoryRequest>): (resp: InventoryResponse)
    ensures resp.isSuccess && resp.errorMessage.None?
    ensures request.None? ==> resp.inventoryInfo == d.inventory
    ensures request.Some? ==>
      var q := request.value;
      forall k :: 0 <= k < |resp.inventoryInfo| ==> MatchesCriteria(resp.inventoryInfo[k], q.abo, q.rh, q.elementId, q.volume)
  {
    if NoFilters(request) then
      InventoryResponse(None, true, Store.GetAllInventory(d))
    else
      var q := request.value;
      InventoryResponse(None, true, Store.GetInventory(d, q.abo, q.rh, q.elementId, q.volume))
  }

  /** The shortcut is only an optimisation: whatever the request, the endpoint
      answers exactly what the store's filter gives for the request's criteria
      (a missing body counting as four blank criteria). In particular a volume
      below zero with blank strings also returns everything. */
  lemma GetInventoryIsFilter(d: Doc, request: Option<InventoryRequest>)
    ensures var q := request.GetOr(InventoryRequest(None, None, None, 0));
      GetInventory(d, request).inventoryInfo == Filter(d.inventory, q.abo, q.rh, q.elementId, q.volume)
  {
    var q := request.GetOr(InventoryRequest(None, None, None, 0));
    if NoFilters(request) {
      FilterAllBlank(d.inventory, q.abo, q.rh, q.elementId, q.volume);
    }
  }

  /** `CreateInventory`: a missing body is refused; otherwise the record is appended. */
  function CreateInventory(d: Doc, item: Option<InventoryInfo>): (x: Exchange)
    ensures x.reply.isSuccess <==> item.Some?
    ensures item.None? ==> x.doc == d && x.reply.errorMessage == ItemRequired
    ensures item.Some? ==> x.doc.inventory == d.inventory + [item.value] && x.doc.orders == d.orders
  {
    match item
    case None => Exchange(Reply(false, ItemRequired), d)
    case Some(rec) =>
      var c := Store.CreateInventory(d, rec);
      assert c.doc.inventory == d.inventory + [rec];
      Exchange(Reply(c.ok, if c.ok then "" else CreateFailed), c.doc)
  }

  /** `UpdateInventory/{index}`: a missing body is refused; otherwise the record
      at `index` is replaced, and an index outside the list is answered with
      success although nothing changes. */
  function UpdateInventory(d: Doc, index: int, item: Option<InventoryInfo>): (x: Exchange)
    ensures x.reply.isSuccess <==> item.Some?
    ensures item.None? ==> x.doc == d && x.reply.errorMessage == ItemRequired
    ensures item.Some? && 0 <= index < |d.inventory| ==> x.doc == d.(inventory := d.inventory[index := item.value])
    ensures item.Some? && !(0 <= index < |d.inventory|) ==> x.doc == d
  {
    match item
    case None => Exchange(Reply(false, ItemRequired), d)
    case Some(rec) =>
      var c := Store.UpdateInventory(d, index, rec);
      assert 0 <= index < |d.inventory| ==> c.doc.inventory == d.inventory[index := rec];
      assert !(0 <= index < |d.inventory|) ==> c.doc.inventory == d.inventory;
      Exchange(Reply(c.ok, if c.ok then "" else UpdateFailed), c.doc)
  }

  /** `DeleteInventory/{index}`: always answered with success; the record at
      `index` is removed when there is one. */
  function DeleteInventory(d: Doc, index: int): (x: Exchange)
    ensures x.reply.isSuccess
    ensures 0 <= index < |d.inventory| ==>
      x.doc == d.(inventory := d.inventory[..index] + d.inventory[index + 1..])
    ensures !(0 <= index < |d.inventory|) ==> x.doc == d
  {
    var c := Store.DeleteInventory(d, index);
    Exchange(Reply(c.ok, if c.ok then "" else DeleteFailed), c.doc)
  }
}

=== FILE: model.dfy ===
/** The records stored in the blood-bank document. Every C# `string?` is an
    `Option<string>`; every C# `int` is an unbounded `int`. */
module Model {
  import opened Wrappers

  /** One inventory record: blood group, Rh factor, product code, product name,
      bag volume in millilitres, and the number of bags on hand (which the
      deduction can drive below zero). */
  datatype InventoryInfo = InventoryInfo(
    abo: Option<string>,
    rh: Option<string>,
    elementId: Option<string>,
    elementName: Option<string>,
    volume: int,
    quantity: int)

  /** One requested line of a patient order; the quantity travels as text. */
  datatype OrderItem = OrderItem(
    quantity: Option<string>,
    elementId: Option<string>,
    volume: int)

  /** A patient transfusion order as the client sends it and as it is stored. */
  datatype PatientOrderRequest = PatientOrderRequest(
    pid: Option<string>,
    orderId: Option<string>,
    patientName: Option<string>,
    insureNumber: Option<string>,
    treatmentCode: Option<string>,
    orderDate: Option<string>,
    age: Option<string>,
    sex: Option<string>,
    bloodGroup: Option<string>,
    rh: Option<string>,
    address: Option<string>,
    doctorId: Option<string>,
    doctorName: Option<string>,
    locationId: Option<string>,
    locationName: Option<string>,
    listOrder: Option<seq<OrderItem>>)
  {
    /** The line items; a null list has none. */
    function Items(): seq<OrderItem> {
      listOrder.GetOr([])
    }
  }

  /** The whole persisted document: it is always read and written as one unit. */
  datatype Doc = Doc(inventory: seq<InventoryInfo>, orders: seq<PatientOrderRequest>)
}

=== FILE: patient_order_controller.dfy ===
/** The patient-order endpoints (WebTestKhoMau/Controllers/PatientOrderController.cs).
    `SavePatient` is the transactional path: null check, both validation phases,
    then the store's deduction. The editing endpoints validate structure only
    and never touch the inventory. */
module PatientOrderController {
  import opened Wrappers
  import opened Text
  import opened Model
  import opened Inventory
  import opened Validation
  import Store

  /** An error message: either one of the controller's fixed texts or the
      validator's message for a rejected order. */
  datatype Message = Fixed(text: string) | Rejected(error: ValidationError)

  /** `PatientOrderResponse`, and the `{ IsSuccess, ErrorMessage }` object of the editing endpoints. */
  datatype Reply = Reply(isSuccess: bool, errorMessage: Message)

  /** A reply together with the document it leaves behind. */
  datatype Exchange = Exchange(reply: Reply, doc: Doc)

  const BodyRequired: string := "Request body is required"
  const SaveFailed: string := "Failed to save patient order"
  const OrderRequired: string := "Patient order is required"
  const CreateFailed: string := "Failed to create patient order"
  const UpdateFailed: string := "Failed to update patient order"
  const DeleteFailed: string := "Failed to delete patient order"

  /** Every line item of `r` passes the stock check against `inv`. */
  predicate AllInStock(inv: seq<InventoryInfo>, r: PatientOrderRequest) {
    forall k :: 0 <= k < |r.Items()| ==> InStock(inv, r.bloodGroup, r.rh, r.Items()[k])
  }

  // ------------------------------------------------------------ SavePatient

  /** `POST SavePatient`. A refused order leaves the document as it was; an
      accepted one is appended and its line items deducted. */
  function SavePatient(isDate: string -> bool, d: Doc, req: Option<PatientOrderRequest>): (x: Exchange)
    ensures x.reply.isSuccess ==> req.Some? && AcceptedOrder(isDate, req.value) && AllInStock(d.inventory, req.value)
    ensures !x.reply.isSuccess ==> x.doc == d
    ensures req.None? ==> x.reply == Reply(false, Fixed(BodyRequired))
    ensures x.reply.isSuccess ==> x.reply.errorMessage == Fixed("")
    ensures x.reply.isSuccess ==>
      x.doc.orders == d.orders + [req.value] && OnlyQuantitiesDiffer(d.inventory, x.doc.inventory)
  {
    match req
    case None => Exchange(Reply(false, Fixed(BodyRequired)), d)
    case Some(r) =>
      var v := ValidateWithInventory(isDate, d.inventory, req);
      ValidateWithInventoryAccepts(isDate, d.inventory, req);
      if v.Fail? then Exchange(Reply(false, Rejected(v.error)), d)
      else
        var c := Store.SaveWithDeduction(d, r);
        Exchange(Reply(c.ok, if c.ok then Fixed("") else Fixed(SaveFailed)), c.doc)
  }

  /** SavePatient succeeds exactly for a structurally acceptable order whose
      every line item, checked on its own, is in stock; in particular once
      validation has passed the deduction cannot fail, so the reply is never
      the "Failed to save patient order" message. */
  lemma SavePatientAccepts(isDate: string -> bool, d: Doc, req: Option<PatientOrderRequest>)
    ensures SavePatient(isDate, d, req).reply.isSuccess
        <==> req.Some? && AcceptedOrder(isDate, req.value) && AllInStock(d.inventory, req.value)
    ensures SavePatient(isDate, d, req).reply.errorMessage != Fixed(SaveFailed)
  {
    ValidateWithInventoryAccepts(isDate, d.inventory, req);
    if req.Some? && AcceptedOrder(isDate, req.value) {
      AcceptedQuantitiesParse(isDate, req.value);
    }
  }

  /** A rejected order reports the validator's first error, and for a
      structurally bad order that error is the structural one. */
  lemma SavePatientReportsFirstError(isDate: string -> bool, d: Doc, r: PatientOrderRequest)
    requires CheckStructure(isDate, r).Fail?
    ensures SavePatient(isDate, d, Some(r)) == Exchange(Reply(false, Rejected(CheckStructure(isDate, r).error)), d)
  {
  }

  /** Whatever check rejects the order, structural or stock, the reply carries
      that first error and the document is left untouched. */
  lemma SavePatientReportsValidationError(isDate: string -> bool, d: Doc, r: PatientOrderRequest)
    requires ValidateWithInventory(isDate, d.inventory, Some(r)).Fail?
    ensures SavePatient(isDate, d, Some(r)) == Exchange(Reply(false, Rejected(ValidateWithInventory(isDate, d.inventory, Some(r)).error)), d)
  {
  }

  /** An accepted order is answered with an empty success message and committed
      through the store's save-with-deduction. */
  lemma SavePatientCommits(isDate: string -> bool, d: Doc, r: PatientOrderRequest)
    requires AcceptedOrder(isDate, r) && AllInStock(d.inventory, r)
    ensures SavePatient(isDate, d, Some(r)) == Exchange(Reply(true, Fixed("")), Store.SaveWithDeduction(d, r).doc)
  {
    ValidateWithInventoryAccepts(isDate, d.inventory, Some(r));
    AcceptedQuantitiesParse(isDate, r);
  }

  /** The effect of an accepted order on the inventory: every record keeps its
      place and its other fields, and loses exactly the quantities of the line
      items that first match it on blood group, Rh, ElementID and Volume. */
  lemma SavePatientDeducts(isDate: string -> bool, d: Doc, r: PatientOrderRequest)
    requires AcceptedOrder(isDate, r) && AllInStock(d.inventory, r)
    ensures var after := SavePatient(isDate, d, Some(r)).doc.inventory;
      && |after| == |d.inventory|
      && forall j :: 0 <= j < |d.inventory| ==>
        after[j] == d.inventory[j].(quantity := d.inventory[j].quantity - Demand(d.inventory, r.bloodGroup, r.rh, r.Items(), j))
  {
    AcceptedQuantitiesParse(isDate, r);
    SavePatientCommits(isDate, d, r);
    Store.SaveWithDeductionEffect(d, r);
  }

  /** A record that no line item of an accepted order matches first on blood
      group, Rh, ElementID and Volume comes out of SavePatient unchanged. */
  lemma SavePatientLeavesUnmatched(isDate: string -> bool, d: Doc, r: PatientOrderRequest, j: nat)
    requires AcceptedOrder(isDate, r) && AllInStock(d.inventory, r)
    requires j < |d.inventory|
    requires forall k :: 0 <= k < |r.Items()| ==> FirstMatchIndex(d.inventory, r.bloodGroup, r.rh, r.Items()[k]) != Some(j)
    ensures SavePatient(isDate, d, Some(r)).doc.inventory[j] == d.inventory[j]
  {
    SavePatientDeducts(isDate, d, r);
    NoDemandWithoutMatch(d.inventory, r.bloodGroup, r.rh, r.Items(), j);
  }

  /** The stock check protects the inventory when the header names a blood
      group and an Rh factor and no two line items take from the same record:
      an accepted order drives no record below zero, and every record it does
      not take from is left exactly as it was. */
  lemma SavePatientNeverOversellsDistinctLines(isDate: string -> bool, d: Doc, r: PatientOrderRequest)
    requires AcceptedOrder(isDate, r) && AllInStock(d.inventory, r)
    requires !IsBlank(r.bloodGroup) && !IsBlank(r.rh)
    requires DistinctMatches(d.inventory, r.bloodGroup, r.rh, r.Items())
    ensures var after := SavePatient(isDate, d, Some(r)).doc.inventory;
      forall j :: 0 <= j < |d.inventory| ==> after[j] == d.inventory[j] || after[j].quantity >= 0
  {
    var inv := d.inventory;
    var items := r.Items();
    SavePatientDeducts(isDate, d, r);
    AcceptedQuantitiesParse(isDate, r);
    forall j | 0 <= j < |inv|
      ensures inv[j].quantity - Demand(inv, r.bloodGroup, r.rh, items, j) >= 0
           || Demand(inv, r.bloodGroup, r.rh, items, j) == 0
    {
      assert forall k :: 0 <= k < |items| ==> ItemWellFormed(items[k]);
      DistinctLinesDemand(inv, r.bloodGroup, r.rh, items, j);
    }
  }

  // ------------------------------------------------------ editing endpoints

  /** `CreatePatientOrder`: null check and structural validation only; the
      order is appended without any stock check, and the inventory is never touched. */
  function CreatePatientOrder(isDate: string -> bool, d: Doc, req: Option<PatientOrderRequest>): (x: Exchange)
    ensures x.reply.isSuccess <==> req.Some? && AcceptedOrder(isDate, req.value)
    ensures x.doc.inventory == d.inventory
    ensures !x.reply.isSuccess ==> x.doc == d
    ensures req.None? ==> x.reply == Reply(false, Fixed(OrderRequired))
    ensures req.Some? && ValidatePatientOrder(isDate, req).Fail? ==> x.reply == Reply(false, Rejected(ValidatePatientOrder(isDate, req).error))
    ensures x.reply.isSuccess ==> x.doc.orders == d.orders + [req.value]
  {
    match req
    case None => Exchange(Reply(false, Fixed(OrderRequired)), d)
    case Some(r) =>
      StructureAcceptsExactly(isDate, r);
      var v := ValidatePatientOrder(isDate, req);
      if v.Fail? then Exchange(Reply(false, Rejected(v.error)), d)
      else
        var c := Store.CreatePatientOrder(d, r);
        assert c.doc.orders == d.orders + [r];
        Exchange(Reply(c.ok, if c.ok then Fixed("") else Fixed(CreateFailed)), c.doc)
  }

  /** `UpdatePatientOrder/{index}`: null check and structural validation, then
      the order at `index` is replaced; an index outside the list is answered
      with success although nothing changes. The inventory is never touched. */
  function UpdatePatientOrder(isDate: string -> bool, d: Doc, index: int, req: Option<PatientOrderRequest>): (x: Exchange)
    ensures x.reply.isSuccess <==> req.Some? && AcceptedOrder(isDate, req.value)
    ensures x.doc.inventory == d.inventory
    ensures !x.reply.isSuccess ==> x.doc == d
    ensures req.None? ==> x.reply == Reply(false, Fixed(OrderRequired))
    ensures req.Some? && ValidatePatientOrder(isDate, req).Fail? ==> x.reply == Reply(false, Rejected(ValidatePatientOrder(isDate, req).error))
    ensures x.reply.isSuccess && 0 <= index < |d.orders| ==> x.doc.orders == d.orders[index := req.value]
    ensures x.reply.isSuccess && !(0 <= index < |d.orders|) ==> x.doc == d
  {
    match req
    case None => Exchange(Reply(false, Fixed(OrderRequired)), d)
    case Some(r) =>
      StructureAcceptsExactly(isDate, r);
      var v := ValidatePatientOrder(isDate, req);
      if v.Fail? then Exchange(Reply(false, Rejected(v.error)), d)
      else
        var c := Store.UpdatePatientOrder(d, index, r);
        assert 0 <= index < |d.orders| ==> c.doc.orders == d.orders[index := r];
        assert !(0 <= index < |d.orders|) ==> c.doc.orders == d.orders;
        Exchange(Reply(c.ok, if c.ok then Fixed("") else Fixed(UpdateFailed)), c.doc)
  }

  /** `DeletePatientOrder/{index}`: no validation; always answered with success. */
  function DeletePatientOrder(d: Doc, index: int): (x: Exchange)
    ensures x.reply.isSuccess
    ensures x.doc.inventory == d.inventory
    ensures 0 <= index < |d.orders| ==> x.doc.orders == d.orders[..index] + d.orders[index + 1..]
    ensures !(0 <= index < |d.orders|) ==> x.doc == d
  {
    var c := Store.DeletePatientOrder(d, index);
    Exchange(Reply(c.ok, if c.ok then Fixed("") else Fixed(DeleteFailed)), c.doc)
  }
}

=== FILE: scenarios.dfy ===
/** Worked examples of SavePatient on a one-record inventory: an order that is
    filled, one that asks for too much, one with an unknown sex code, and the
    two ways an accepted order escapes the stock check. Each example is first
    proved for any request with the example's fields, then instantiated. */
module Scenarios {
  import opened Wrappers
  import opened Text
  import opened Model
  import opened Inventory
  import opened Validation
  import opened PatientOrderController

  /** A date parser that accepts everything; the examples do not depend on it. */
  function AnyDate(s: string): bool {
    true
  }

  /** Five 250 ml bags of O+ red cells. */
  function Stock(): InventoryInfo {
    InventoryInfo(Some("O"), Some("+"), Some("RBC"), Some("Red cells"), 250, 5)
  }

  function Store0(): Doc {
    Doc([Stock()], [])
  }

  function Line(quantity: string): OrderItem {
    OrderItem(Some(quantity), Some("RBC"), 250)
  }

  /** A complete order header with the given sex code, blood group, Rh and lines. */
  function Order(sex: string, bloodGroup: Option<string>, rh: Option<string>, lines: seq<OrderItem>): PatientOrderRequest {
    PatientOrderRequest(
      Some("P1"), Some("O1"), Some("Nguyen"), None, None, Some("2024-01-01"),
      Some("30"), Some(sex), bloodGroup, rh, None, None, None, None, None, Some(lines))
  }

  // ------------------------------------------------------ accepted headers

  lemma Parse30() ensures ParseInt("30") == Some(30) {
    ParseShowRoundTrip(30);
    assert ShowNat(3) == "3";
    assert ShowInt(30) == "30";
  }

  /** A string that starts with a non-white character is not blank. */
  lemma Word(s: string)
    requires |s| > 0 && !IsWhiteSpace(s[0])
    ensures !IsBlank(Some(s))
  {
  }

  /** The header fields every example shares. */
  predicate ExampleHeader(r: PatientOrderRequest) {
    && r.pid == Some("P1") && r.orderId == Some("O1") && r.patientName == Some("Nguyen")
    && r.orderDate == Some("2024-01-01") && r.age == Some("30")
  }

  /** The shared header fields are present, and the age is in range. */
  lemma ExampleHeaderGiven(r: PatientOrderRequest)
    requires ExampleHeader(r)
    ensures !IsBlank(r.pid) && !IsBlank(r.orderId) && !IsBlank(r.patientName) && !IsBlank(r.orderDate)
    ensures !IsBlank(r.age) && ParsesBetween(r.age, 0, 150)
  {
    Word("P1");
    Word("O1");
    Word("Nguyen");
    Word("2024-01-01");
    Word("30");
    Parse30();
  }

  lemma ExampleHeaderAccepted(r: PatientOrderRequest)
    requires ExampleHeader(r)
    requires r.sex == Some("M") || r.sex == Some("F")
    requires r.bloodGroup == None || r.bloodGroup == Some("O")
    requires r.rh == None || r.rh == Some("+")
    requires forall k :: 0 <= k < |r.Items()| ==> ItemWellFormed(r.Items()[k])
    ensures AcceptedOrder(AnyDate, r)
  {
    ExampleHeaderGiven(r);
    Word(r.sex.value);
  }

  lemma LineOk(q: string, n: int)
    requires ParseInt(q) == Some(n) && 1 <= n <= Int32Max
    requires |q| > 0 && !IsWhiteSpace(q[0])
    ensures ItemWellFormed(Line(q))
  {
    Word(q);
    Word("RBC");
  }

  // ------------------------------------------------------- the one record

  /** A line for 250 ml of RBC. */
  predicate RbcLine(item: OrderItem) {
    item.elementId == Some("RBC") && item.volume == 250
  }

  /** With the header's O and +, the record is both the one the stock check
      inspects and the one the deduction takes from. */
  lemma RecordFoundForO(item: OrderItem)
    requires RbcLine(item)
    ensures FirstMatchIndex([Stock()], Some("O"), Some("+"), item) == Some(0)
    ensures StockPick([Stock()], Some("O"), Some("+"), item) == Some(Stock())
  {
    assert Stock().elementId == item.elementId;
    assert KeyMatches(Stock(), Some("O"), Some("+"), item);
    Word("O");
    Word("+");
    Word("RBC");
    StockPickIsFirstMatch([Stock()], Some("O"), Some("+"), item);
  }

  /** With no blood group and no Rh, the stock check still finds the record
      but the deduction does not. */
  lemma RecordFoundForBlank(item: OrderItem)
    requires RbcLine(item)
    ensures FirstMatchIndex([Stock()], None, None, item) == None
    ensures StockPick([Stock()], None, None, item) == Some(Stock())
  {
    assert MatchesCriteria(Stock(), None, None, item.elementId, 0);
    assert Filter([Stock()], None, None, item.elementId, 0) == [Stock()];
  }

  // ---------------------------------------------- two lines of three bags

  lemma Parse3() ensures ParseInt("3") == Some(3) {
    ParseShowRoundTrip(3);
    assert ShowInt(3) == "3";
  }

  lemma ThreeBagLine()
    ensures ItemWellFormed(Line("3")) && RbcLine(Line("3")) && ParsedQuantity(Line("3")) == Some(3)
  {
    Parse3();
    LineOk("3", 3);
  }

  /** A line for three 250 ml bags of RBC. */
  predicate ThreeBags(line: OrderItem) {
    ItemWellFormed(line) && RbcLine(line) && ParsedQuantity(line) == Some(3)
  }

  lemma TwoLinesInStock(inv: seq<InventoryInfo>, r: PatientOrderRequest, line: OrderItem)
    requires r.Items() == [line, line]
    requires InStock(inv, r.bloodGroup, r.rh, line)
    ensures AllInStock(inv, r)
  {
  }

  lemma TwoLinesDemand(inv: seq<InventoryInfo>, bloodGroup: Option<string>, rh: Option<string>, line: OrderItem, j: nat)
    requires FirstMatchIndex(inv, bloodGroup, rh, line) == Some(j)
    requires ParsedQuantity(line) == Some(3)
    ensures Demand(inv, bloodGroup, rh, [line, line], j) == 6
  {
    var q := ParsedQuantity(line).GetOr(0);
    assert q == 3;
    assert [line][1..] == [];
    assert Demand(inv, bloodGroup, rh, [line], j) == q + Demand(inv, bloodGroup, rh, [], j);
    assert [line, line][1..] == [line];
    assert Demand(inv, bloodGroup, rh, [line, line], j) == q + Demand(inv, bloodGroup, rh, [line], j);
  }

  /** The example's requirements for a two-line order of three bags per line. */
  predicate SplitOrder(r: PatientOrderRequest, line: OrderItem) {
    && AcceptedOrder(AnyDate, r) && r.bloodGroup == Some("O") && r.rh == Some("+")
    && ThreeBags(line) && r.Items() == [line, line]
  }

  lemma SplitOrderAccepted(r: PatientOrderRequest, line: OrderItem)
    requires SplitOrder(r, line)
    ensures SavePatient(AnyDate, Store0(), Some(r)).reply == Reply(true, Fixed(""))
  {
    RecordFoundForO(line);
    TwoLinesInStock([Stock()], r, line);
    SavePatientAccepts(AnyDate, Store0(), Some(r));
  }

  lemma SplitOrderDeducted(r: PatientOrderRequest, line: OrderItem)
    requires SplitOrder(r, line)
    ensures SavePatient(AnyDate, Store0(), Some(r)).doc.inventory == [Stock().(quantity := -1)]
  {
    RecordFoundForO(line);
    TwoLinesDemand([Stock()], r.bloodGroup, r.rh, line, 0);
    SplitOrderAccepted(r, line);
    SavePatientDeducts(AnyDate, Store0(), r);
  }

  lemma SplitOrderStored(r: PatientOrderRequest, line: OrderItem)
    requires SplitOrder(r, line)
    ensures SavePatient(AnyDate, Store0(), Some(r)).doc == Doc([Stock().(quantity := -1)], [r])
  {
    SplitOrderAccepted(r, line);
    SplitOrderDeducted(r, line);
    assert Store0().orders + [r] == [r];
  }

  lemma SplitLinesOversellFor(r: PatientOrderRequest, line: OrderItem)
    requires SplitOrder(r, line)
    ensures SavePatient(AnyDate, Store0(), Some(r)) == Exchange(Reply(true, Fixed("")), Doc([Stock().(quantity := -1)], [r]))
  {
    SplitOrderAccepted(r, line);
    SplitOrderStored(r, line);
  }

  lemma ExampleSplitOrder()
    ensures SplitOrder(Order("M", Some("O"), Some("+"), [Line("3"), Line("3")]), Line("3"))
  {
    var r := Order("M", Some("O"), Some("+"), [Line("3"), Line("3")]);
    ThreeBagLine();
    assert r.Items() == [Line("3"), Line("3")];
    ExampleHeaderAccepted(r);
  }

  /** Two lines of three bags each against five: each line passes the stock
      check on its own, so the order is accepted and the record drops to -1. */
  lemma SplitLinesOversell()
    ensures var r := Order("M", Some("O"), Some("+"), [Line("3"), Line("3")]);
      SavePatient(AnyDate, Store0(), Some(r)) == Exchange(Reply(true, Fixed("")), Doc([Stock().(quantity := -1)], [r]))
  {
    ExampleSplitOrder();
    SplitLinesOversellFor(Order("M", Some("O"), Some("+"), [Line("3"), Line("3")]), Line("3"));
  }

  // ------------------------------------------------------- single-line orders

  lemma Parse2() ensures ParseInt("2") == Some(2) {
    ParseShowRoundTrip(2);
    assert ShowInt(2) == "2";
  }

  lemma Parse10() ensures ParseInt("10") == Some(10) {
    ParseShowRoundTrip(10);
    assert ShowNat(1) == "1";
    assert ShowInt(10) == "10";
  }

  lemma TwoBagLine()
    ensures ItemWellFormed(Line("2")) && RbcLine(Line("2")) && ParsedQuantity(Line("2")) == Some(2)
  {
    Parse2();
    LineOk("2", 2);
  }

  lemma TenBagLine()
    ensures ItemWellFormed(Line("10")) && RbcLine(Line("10")) && ParsedQuantity(Line("10")) == Some(10)
  {
    Parse10();
    LineOk("10", 10);
  }

  /** An accepted order with the one line `line` for `n` bags of 250 ml RBC. */
  predicate OneLineOrder(r: PatientOrderRequest, line: OrderItem, n: int) {
    && AcceptedOrder(AnyDate, r) && r.Items() == [line]
    && ItemWellFormed(line) && RbcLine(line) && ParsedQuantity(line) == Some(n)
  }

  lemma OneLineDemand(inv: seq<InventoryInfo>, bloodGroup: Option<string>, rh: Option<string>, line: OrderItem, j: nat, n: int)
    requires FirstMatchIndex(inv, bloodGroup, rh, line) == Some(j)
    requires ParsedQuantity(line) == Some(n)
    ensures Demand(inv, bloodGroup, rh, [line], j) == n
  {
    assert [line][1..] == [];
    assert Demand(inv, bloodGroup, rh, [line], j) == n + Demand(inv, bloodGroup, rh, [], j);
  }

  lemma OneLineInStock(inv: seq<InventoryInfo>, r: PatientOrderRequest, line: OrderItem, n: int)
    requires r.Items() == [line] && ParsedQuantity(line) == Some(n)
    requires StockPick(inv, r.bloodGroup, r.rh, line) == Some(Stock()) && n <= 5
    ensures AllInStock(inv, r)
  {
    assert InStock(inv, r.bloodGroup, r.rh, line);
  }

  lemma OneLineAccepted(r: PatientOrderRequest, line: OrderItem, n: int)
    requires OneLineOrder(r, line, n)
    requires StockPick([Stock()], r.bloodGroup, r.rh, line) == Some(Stock()) && n <= 5
    ensures SavePatient(AnyDate, Store0(), Some(r)).reply == Reply(true, Fixed(""))
  {
    OneLineInStock([Stock()], r, line, n);
    SavePatientAccepts(AnyDate, Store0(), Some(r));
  }

  /** Two bags out of five with blood group O and Rh +: three bags are left. */
  lemma FilledOrderDeducted(r: PatientOrderRequest, line: OrderItem)
    requires OneLineOrder(r, line, 2) && r.bloodGroup == Some("O") && r.rh == Some("+")
    ensures SavePatient(AnyDate, Store0(), Some(r)).doc.inventory == [Stock().(quantity := 3)]
  {
    RecordFoundForO(line);
    OneLineDemand([Stock()], r.bloodGroup, r.rh, line, 0, 2);
    OneLineAccepted(r, line, 2);
    SavePatientDeducts(AnyDate, Store0(), r);
  }

  lemma FilledOrderFor(r: PatientOrderRequest, line: OrderItem)
    requires OneLineOrder(r, line, 2) && r.bloodGroup == Some("O") && r.rh == Some("+")
    ensures SavePatient(AnyDate, Store0(), Some(r)) == Exchange(Reply(true, Fixed("")), Doc([Stock().(quantity := 3)], [r]))
  {
    RecordFoundForO(line);
    OneLineAccepted(r, line, 2);
    FilledOrderDeducted(r, line);
    assert Store0().orders + [r] == [r];
  }

  /** No blood group and no Rh: accepted, stored, and nothing deducted. */
  lemma BlankGroupDeducted(r: PatientOrderRequest, line: OrderItem)
    requires SavePatient(AnyDate, Store0(), Some(r)).reply.isSuccess
    requires r.Items() == [line] && RbcLine(line) && r.bloodGroup == None && r.rh == None
    ensures SavePatient(AnyDate, Store0(), Some(r)).doc.inventory == [Stock()]
  {
    RecordFoundForBlank(line);
    SavePatientLeavesUnmatched(AnyDate, Store0(), r, 0);
  }

  lemma BlankGroupFor(r: PatientOrderRequest, line: OrderItem)
    requires OneLineOrder(r, line, 2) && r.bloodGroup == None && r.rh == None
    ensures SavePatient(AnyDate, Store0(), Some(r)) == Exchange(Reply(true, Fixed("")), Doc([Stock()], [r]))
  {
    RecordFoundForBlank(line);
    OneLineAccepted(r, line, 2);
    BlankGroupDeducted(r, line);
    assert Store0().orders + [r] == [r];
  }

  /** Ten bags out of five: refused with the line's position, the request and
      what is left. */
  lemma OverdrawnValidation(r: PatientOrderRequest, line: OrderItem)
    requires OneLineOrder(r, line, 10) && r.bloodGroup == Some("O") && r.rh == Some("+")
    ensures ValidateWithInventory(AnyDate, [Stock()], Some(r)) == Fail(InsufficientStock(0, 10, 5))
  {
    RecordFoundForO(line);
    StructureAcceptsExactly(AnyDate, r);
    assert r.listOrder == Some([line]);
    assert CheckStockItem([Stock()], r.bloodGroup, r.rh, 0, line) == Fail(InsufficientStock(0, 10, 5));
    assert !InStock([Stock()], r.bloodGroup, r.rh, line);
  }

  lemma OverdrawnFor(r: PatientOrderRequest, line: OrderItem)
    requires OneLineOrder(r, line, 10) && r.bloodGroup == Some("O") && r.rh == Some("+")
    ensures SavePatient(AnyDate, Store0(), Some(r)) == Exchange(Reply(false, Rejected(InsufficientStock(0, 10, 5))), Store0())
  {
    OverdrawnValidation(r, line);
  }

  // ----------------------------------------------------------- sex code "X"

  lemma UnknownSexStructure(r: PatientOrderRequest)
    requires ExampleHeader(r) && r.sex == Some("X")
    ensures CheckStructure(AnyDate, r) == Fail(HeaderError(Sex, Invalid))
  {
    ExampleHeaderGiven(r);
    SexX(r);
  }

  lemma SexX(r: PatientOrderRequest)
    requires r.sex == Some("X")
    ensures !IsBlank(r.sex) && r.sex != Some("M") && r.sex != Some("F")
  {
    Word("X");
    assert "X"[0] != "M"[0] && "X"[0] != "F"[0];
  }

  lemma UnknownSexFor(r: PatientOrderRequest)
    requires ExampleHeader(r) && r.sex == Some("X")
    ensures SavePatient(AnyDate, Store0(), Some(r)) == Exchange(Reply(false, Rejected(HeaderError(Sex, Invalid))), Store0())
  {
    UnknownSexStructure(r);
    SavePatientReportsFirstError(AnyDate, Store0(), r);
  }

  // --------------------------------------------------------- the examples

  lemma ExampleOneLine(sex: string, bloodGroup: Option<string>, rh: Option<string>, line: OrderItem, n: int)
    requires sex == "M" || sex == "F"
    requires bloodGroup == None || bloodGroup == Some("O")
    requires rh == None || rh == Some("+")
    requires ItemWellFormed(line) && RbcLine(line) && ParsedQuantity(line) == Some(n)
    ensures OneLineOrder(Order(sex, bloodGroup, rh, [line]), line, n)
  {
    var r := Order(sex, bloodGroup, rh, [line]);
    assert r.Items() == [line];
    ExampleHeaderAccepted(r);
  }

  /** Two bags out of five: accepted, three bags left, the order stored. */
  lemma FilledOrder()
    ensures var r := Order("M", Some("O"), Some("+"), [Line("2")]);
      SavePatient(AnyDate, Store0(), Some(r)) == Exchange(Reply(true, Fixed("")), Doc([Stock().(quantity := 3)], [r]))
  {
    TwoBagLine();
    ExampleOneLine("M", Some("O"), Some("+"), Line("2"), 2);
    FilledOrderFor(Order("M", Some("O"), Some("+"), [Line("2")]), Line("2"));
  }

  /** Ten bags out of five: refused with the line, the request and what is
      left, and nothing written. */
  lemma OverdrawnOrder()
    ensures var r := Order("M", Some("O"), Some("+"), [Line("10")]);
      SavePatient(AnyDate, Store0(), Some(r)) == Exchange(Reply(false, Rejected(InsufficientStock(0, 10, 5))), Store0())
  {
    TenBagLine();
    ExampleOneLine("M", Some("O"), Some("+"), Line("10"), 10);
    OverdrawnFor(Order("M", Some("O"), Some("+"), [Line("10")]), Line("10"));
  }

  /** No blood group and no Rh: accepted and stored, nothing deducted. */
  lemma HeaderWithoutBloodGroupDeductsNothing()
    ensures var r := Order("F", None, None, [Line("2")]);
      SavePatient(AnyDate, Store0(), Some(r)) == Exchange(Reply(true, Fixed("")), Doc([Stock()], [r]))
  {
    TwoBagLine();
    ExampleOneLine("F", None, None, Line("2"), 2);
    BlankGroupFor(Order("F", None, None, [Line("2")]), Line("2"));
  }

  /** A sex code other than "M" or "F" is refused before any stock is looked at. */
  lemma UnknownSexCode()
    ensures var r := Order("X", Some("O"), Some("+"), [Line("2")]);
      SavePatient(AnyDate, Store0(), Some(r)) == Exchange(Reply(false, Rejected(HeaderError(Sex, Invalid))), Store0())
  {
    UnknownSexFor(Order("X", Some("O"), Some("+"), [Line("2")]));
  }
}

=== FILE: sequences.dfy ===
/** Order-related facts about sequences, and the positional edits the store
    performs by walking a list with a running index. */
module Sequences {

  /** `sub` is obtained from `s` by deleting elements and keeping the order of the rest. */
  predicate IsSubsequence<T(==)>(sub: seq<T>, s: seq<T>)
    decreases |s|
  {
    if |sub| == 0 then true
    else if |s| == 0 then false
    else (sub[0] == s[0] && IsSubsequence(sub[1..], s[1..])) || IsSubsequence(sub, s[1..])
  }

  /** Rebuilds `s` the way the store does: walk it while counting from `current`,
      and emit `x` instead of the element whose count equals `index`. */
  function ReplaceWalk<T>(s: seq<T>, current: int, index: int, x: T): (r: seq<T>)
    ensures |r| == |s|
    ensures forall k :: 0 <= k < |s| ==> r[k] == (if current + k == index then x else s[k])
    decreases |s|
  {
    if |s| == 0 then []
    else [if current == index then x else s[0]] + ReplaceWalk(s[1..], current + 1, index, x)
  }

  /** Rebuilds `s` while counting from `current`, skipping the element whose count equals `index`. */
  function RemoveWalk<T>(s: seq<T>, current: int, index: int): (r: seq<T>)
    ensures current <= index < current + |s| ==> r == s[..index - current] + s[index - current + 1..]
    ensures !(current <= index < current + |s|) ==> r == s
    decreases |s|
  {
    if |s| == 0 then []
    else
      var rest := RemoveWalk(s[1..], current + 1, index);
      if current == index then
        assert rest == s[1..];
        rest
      else
        var r := [s[0]] + rest;
        assert current < index < current + |s| ==> r == s[..index - current] + s[index - current + 1..] by {
          if current < index < current + |s| {
            var j := index - current;
            assert s[1..][..j - 1] == s[1..j];
            assert s[1..][j..] == s[j + 1..];
            assert [s[0]] + s[1..j] == s[..j];
          }
        }
        r
  }

  /** Replace the element at `index`, counting from zero; an index outside the
      list (negative or past the end) leaves the list as it was. */
  function ReplaceAt<T>(s: seq<T>, index: int, x: T): (r: seq<T>)
    ensures 0 <= index < |s| ==> r == s[index := x]
    ensures !(0 <= index < |s|) ==> r == s
  {
    ReplaceWalk(s, 0, index, x)
  }

  /** Remove the element at `index`, counting from zero; an index outside the
      list leaves the list as it was. */
  function RemoveAt<T>(s: seq<T>, index: int): (r: seq<T>)
    ensures 0 <= index < |s| ==> |r| == |s| - 1
    ensures 0 <= index < |s| ==> forall k :: 0 <= k < |r| ==> r[k] == (if k < index then s[k] else s[k + 1])
    ensures !(0 <= index < |s|) ==> r == s
  {
    RemoveWalk(s, 0, index)
  }
}

=== FILE: store.dfy ===
/** The JSON-file store (WebTestKhoMau/Services/MockDatabaseService.cs). Every
    operation reads the whole document, rebuilds both lists, and writes the whole
    document back, so each one is a function from the document before to the
    document after. Reading, parsing and writing the file are not modelled: the
    `bool` each mutating operation returns is false only when one of those throws,
    so in this model it is false only when the deduction's own `int.Parse` fails. */
module Store {
  import opened Wrappers
  import opened Sequences
  import opened Model
  import opened Inventory

  /** What a mutating operation reports, and the document it leaves behind. */
  datatype Commit = Commit(ok: bool, doc: Doc)

  // ------------------------------------------------------------------ reads

  function GetAllInventory(d: Doc): seq<InventoryInfo> {
    d.inventory
  }

  function GetInventory(d: Doc, abo: Option<string>, rh: Option<string>, elementId: Option<string>, volume: int): seq<InventoryInfo> {
    Filter(d.inventory, abo, rh, elementId, volume)
  }

  function GetPatientOrders(d: Doc): seq<PatientOrderRequest> {
    d.orders
  }

  // ------------------------------------------------------------ appending

  /** `SavePatientOrderAsync` and `CreatePatientOrderAsync`: the order goes to the
      end of the list, every stored order keeps its place, and the inventory is
      written back as it was read. */
  function AppendOrder(d: Doc, req: PatientOrderRequest): (c: Commit)
    ensures c.ok
    ensures c.doc.inventory == d.inventory
    ensures |c.doc.orders| == |d.orders| + 1
    ensures c.doc.orders[..|d.orders|] == d.orders && c.doc.orders[|d.orders|] == req
  {
    Commit(true, d.(orders := d.orders + [req]))
  }

  function SavePatientOrder(d: Doc, req: PatientOrderRequest): (c: Commit)
    ensures c.ok && c.doc.inventory == d.inventory
    ensures |c.doc.orders| == |d.orders| + 1 && c.doc.orders[|d.orders|] == req
    ensures c.doc.orders == d.orders + [req]
  {
    AppendOrder(d, req)
  }

  function CreatePatientOrder(d: Doc, req: PatientOrderRequest): (c: Commit)
    ensures c.ok && c.doc.inventory == d.inventory
    ensures |c.doc.orders| == |d.orders| + 1 && c.doc.orders[|d.orders|] == req
    ensures c.doc.orders == d.orders + [req]
  {
    AppendOrder(d, req)
  }

  /** `CreateInventoryAsync`: the record goes to the end of the inventory. */
  function CreateInventory(d: Doc, item: InventoryInfo): (c: Commit)
    ensures c.ok
    ensures c.doc.orders == d.orders
    ensures |c.doc.inventory| == |d.inventory| + 1
    ensures c.doc.inventory[..|d.inventory|] == d.inventory && c.doc.inventory[|d.inventory|] == item
  {
    Commit(true, d.(inventory := d.inventory + [item]))
  }

  // ------------------------------------------------------ positional edits

  /** `UpdateInventoryAsync`: the record at the zero-based `index` is replaced; an
      index outside the list (negative included) changes nothing and still
      reports success. */
  function UpdateInventory(d: Doc, index: int, item: InventoryInfo): (c: Commit)
    ensures c.ok
    ensures c.doc.orders == d.orders
    ensures |c.doc.inventory| == |d.inventory|
    ensures forall k :: 0 <= k < |d.inventory| ==> c.doc.inventory[k] == (if k == index then item else d.inventory[k])
  {
    Commit(true, d.(inventory := ReplaceAt(d.inventory, index, item)))
  }

  /** `DeleteInventoryAsync`: the record at `index` is dropped and the later ones
      move up by one; an index outside the list changes nothing. */
  function DeleteInventory(d: Doc, index: int): (c: Commit)
    ensures c.ok
    ensures c.doc.orders == d.orders
    ensures 0 <= index < |d.inventory| ==>
      c.doc.inventory == d.inventory[..index] + d.inventory[index + 1..]
    ensures !(0 <= index < |d.inventory|) ==> c.doc == d
  {
    var r := RemoveAt(d.inventory, index);
    assert 0 <= index < |d.inventory| ==> r == d.inventory[..index] + d.inventory[index + 1..];
    Commit(true, d.(inventory := r))
  }

  /** `UpdatePatientOrderAsync`, the same walk over the orders. */
  function UpdatePatientOrder(d: Doc, index: int, req: PatientOrderRequest): (c: Commit)
    ensures c.ok
    ensures c.doc.inventory == d.inventory
    ensures |c.doc.orders| == |d.orders|
    ensures forall k :: 0 <= k < |d.orders| ==> c.doc.orders[k] == (if k == index then req else d.orders[k])
  {
    Commit(true, d.(orders := ReplaceAt(d.orders, index, req)))
  }

  /** `DeletePatientOrderAsync`, the same walk over the orders. */
  function DeletePatientOrder(d: Doc, index: int): (c: Commit)
    ensures c.ok
    ensures c.doc.inventory == d.inventory
    ensures 0 <= index < |d.orders| ==>
      c.doc.orders == d.orders[..index] + d.orders[index + 1..]
    ensures !(0 <= index < |d.orders|) ==> c.doc == d
  {
    var r := RemoveAt(d.orders, index);
    assert 0 <= index < |d.orders| ==> r == d.orders[..index] + d.orders[index + 1..];
    Commit(true, d.(orders := r))
  }

  // ---------------------------------------------------------- the deduction

  /** `SavePatientOrderWithInventoryDeductionAsync`: deduct every line item from
      the inventory, append the order, and write both. A quantity that does not
      parse throws inside the loop, so nothing is written and the result is false. */
  function SaveWithDeduction(d: Doc, req: PatientOrderRequest): (c: Commit)
    ensures c.ok <==> AllQuantitiesParse(req.Items())
    ensures !c.ok ==> c.doc == d
    ensures c.ok ==> c.doc.orders == d.orders + [req]
    ensures c.ok ==> OnlyQuantitiesDiffer(d.inventory, c.doc.inventory)
  {
    match Deduct(d.inventory, req.bloodGroup, req.rh, req.Items())
    case None => Commit(false, d)
    case Some(inv) => Commit(true, Doc(inv, d.orders + [req]))
  }

  /** A successful deduction lowers every record by exactly the quantities of
      the line items that first match it on ABO, Rh, ElementID and Volume, and
      leaves every other field and every record's position alone. */
  lemma SaveWithDeductionEffect(d: Doc, req: PatientOrderRequest)
    requires AllQuantitiesParse(req.Items())
    ensures var c := SaveWithDeduction(d, req);
      && c.ok
      && |c.doc.inventory| == |d.inventory|
      && forall j :: 0 <= j < |d.inventory| ==>
        c.doc.inventory[j] == d.inventory[j].(quantity := d.inventory[j].quantity - Demand(d.inventory, req.bloodGroup, req.rh, req.Items(), j))
  {
    DeductExactDelta(d.inventory, req.bloodGroup, req.rh, req.Items());
  }

  // ------------------------------------------------------------- round trips

  /** Deleting the record just created restores the document. */
  lemma DeleteUndoesCreateInventory(d: Doc, item: InventoryInfo)
    ensures DeleteInventory(CreateInventory(d, item).doc, |d.inventory|).doc == d
  {
    var grown := CreateInventory(d, item).doc.inventory;
    assert grown[..|d.inventory|] == d.inventory;
  }

  /** Deleting the order just appended restores the document. */
  lemma DeleteUndoesCreatePatientOrder(d: Doc, req: PatientOrderRequest)
    ensures DeletePatientOrder(CreatePatientOrder(d, req).doc, |d.orders|).doc == d
  {
    var grown := CreatePatientOrder(d, req).doc.orders;
    assert grown[..|d.orders|] == d.orders;
  }

  /** Writing back the record already at a position changes nothing, and a
      second identical update changes nothing more. */
  lemma UpdateInventoryIdempotent(d: Doc, index: int, item: InventoryInfo)
    ensures 0 <= index < |d.inventory| ==> UpdateInventory(d, index, d.inventory[index]).doc == d
    ensures var once := UpdateInventory(d, index, item).doc;
      UpdateInventory(once, index, item).doc == once
  {
    var once := UpdateInventory(d, index, item).doc;
    assert UpdateInventory(once, index, item).doc.inventory == once.inventory;
    if 0 <= index < |d.inventory| {
      assert UpdateInventory(d, index, d.inventory[index]).doc.inventory == d.inventory;
    }
  }
}

=== FILE: text.dfy ===
/** The string primitives the services rely on: .NET's notion of white space,
    `string.IsNullOrWhiteSpace`, `string.Trim`, and `int.TryParse`/`int.Parse`
    with the default integer number style. */
module Text {
  import opened Wrappers

  /** `Char.IsWhiteSpace`: the Unicode space separators, U+0009..U+000D, U+0085,
      and the line and paragraph separators. */
  predicate IsWhiteSpace(c: char) {
    || c == ' ' || '\t' <= c <= '\r' || c == '\U{85}' || c == '\U{A0}' || c == '\U{1680}'
    || '\U{2000}' <= c <= '\U{200A}' || c == '\U{2028}' || c == '\U{2029}'
    || c == '\U{202F}' || c == '\U{205F}' || c == '\U{3000}'
  }

  /** The white space `int.Parse` skips around a number: U+0009..U+000D and U+0020. */
  predicate IsNumberWhite(c: char) {
    c == ' ' || '\t' <= c <= '\r'
  }

  predicate IsDigit(c: char) {
    '0' <= c <= '9'
  }

  predicate AllSatisfy(s: string, p: char -> bool) {
    forall k :: 0 <= k < |s| ==> p(s[k])
  }

  /** `string.IsNullOrWhiteSpace`. */
  predicate IsBlank(s: Option<string>) {
    s.None? || AllSatisfy(s.value, IsWhiteSpace)
  }

  function StripStart(s: string, white: char -> bool): string
    decreases |s|
  {
    if |s| > 0 && white(s[0]) then StripStart(s[1..], white) else s
  }

  function StripEnd(s: string, white: char -> bool): string
    decreases |s|
  {
    if |s| > 0 && white(s[|s| - 1]) then StripEnd(s[..|s| - 1], white) else s
  }

  /** Removes every leading and every trailing character satisfying `white`. */
  function Strip(s: string, white: char -> bool): string {
    StripEnd(StripStart(s, white), white)
  }

  /** StripStart drops a white prefix and keeps the rest, which does not start white. */
  lemma {:induction false} StripStartSpec(s: string, white: char -> bool)
    ensures var r := StripStart(s, white);
      && |r| <= |s| && r == s[|s| - |r|..]
      && AllSatisfy(s[..|s| - |r|], white)
      && (|r| > 0 ==> !white(r[0]))
    decreases |s|
  {
    if |s| > 0 && white(s[0]) {
      StripStartSpec(s[1..], white);
      var r := StripStart(s, white);
      assert s[..|s| - |r|] == [s[0]] + s[1..][..|s| - 1 - |r|];
    }
  }

  /** StripEnd drops a white suffix and keeps the rest, which does not end white. */
  lemma {:induction false} StripEndSpec(s: string, white: char -> bool)
    ensures var r := StripEnd(s, white);
      && |r| <= |s| && r == s[..|r|]
      && AllSatisfy(s[|r|..], white)
      && (|r| > 0 ==> !white(r[|r| - 1]))
    decreases |s|
  {
    if |s| > 0 && white(s[|s| - 1]) {
      var t := s[..|s| - 1];
      StripEndSpec(t, white);
      var r := StripEnd(s, white);
      assert r == t[..|r|];
      assert s[|r|..] == t[|r|..] + [s[|s| - 1]];
    }
  }

  /** The result of Strip is a slice of `s` whose two ends are not white, and
      it is empty exactly when `s` is all white. */
  lemma StripSpec(s: string, white: char -> bool)
    ensures var r := Strip(s, white);
      && (|r| > 0 ==> !white(r[0]) && !white(r[|r| - 1]))
      && (r == [] <==> AllSatisfy(s, white))
      && |r| <= |s|
      && exists i :: 0 <= i <= |s| - |r| && r == s[i..i + |r|] && AllSatisfy(s[..i], white) && AllSatisfy(s[i + |r|..], white)
  {
    var t := StripStart(s, white);
    StripStartSpec(s, white);
    StripEndSpec(t, white);
    var r := Strip(s, white);
    var i := |s| - |t|;
    assert r == s[i..i + |r|];
    assert s[i + |r|..] == t[|r|..];
    if r == [] {
      assert s == s[..|s| - |t|] + t;
    }
    if |r| > 0 {
      assert r[0] == t[0];
    }
  }

  /** `string.Trim()`: no longer than the input, and neither end is white space. */
  function Trim(s: string): (r: string)
    ensures |r| <= |s|
    ensures |r| > 0 ==> !IsWhiteSpace(r[0]) && !IsWhiteSpace(r[|r| - 1])
  {
    StripSpec(s, IsWhiteSpace);
    Strip(s, IsWhiteSpace)
  }

  /** C#'s `s?.Trim()`: null stays null. */
  function TrimOpt(s: Option<string>): Option<string> {
    match s
    case None => None
    case Some(v) => Some(Trim(v))
  }

  lemma StripFixesStripped(s: string, white: char -> bool)
    requires |s| > 0 ==> !white(s[0]) && !white(s[|s| - 1])
    ensures Strip(s, white) == s
  {
  }

  /** Trimming is idempotent. */
  lemma TrimIdempotent(s: string)
    ensures Trim(Trim(s)) == Trim(s)
  {
    StripSpec(s, IsWhiteSpace);
    StripFixesStripped(Trim(s), IsWhiteSpace);
  }

  /** A string is blank exactly when trimming empties it. */
  lemma BlankIffTrimEmpty(s: string)
    ensures IsBlank(Some(s)) <==> Trim(s) == []
  {
    StripSpec(s, IsWhiteSpace);
  }

  /** Two nullable strings that trim alike are both null or both present, and
      blank together. */
  lemma SameTrimSameBlank(a: Option<string>, b: Option<string>)
    ensures TrimOpt(a) == TrimOpt(b) ==> (a.None? <==> b.None?) && (IsBlank(a) <==> IsBlank(b))
  {
    if a.Some? && b.Some? {
      BlankIffTrimEmpty(a.value);
      BlankIffTrimEmpty(b.value);
    }
  }

  // ---------------------------------------------------------------- integers

  const Int32Min: int := -0x8000_0000
  const Int32Max: int := 0x7FFF_FFFF

  function DigitValue(c: char): nat
    requires IsDigit(c)
  {
    c as int - '0' as int
  }

  function DigitChar(d: nat): (c: char)
    requires d < 10
    ensures IsDigit(c) && DigitValue(c) == d
  {
    ('0' as int + d) as char
  }

  /** The value of a non-empty run of decimal digits, most significant first. */
  function DigitsValue(s: string): nat
    requires AllSatisfy(s, IsDigit)
    decreases |s|
  {
    if |s| == 0 then 0 else 10 * DigitsValue(s[..|s| - 1]) + DigitValue(s[|s| - 1])
  }

  /** `int.TryParse(s, out n)` (and `int.Parse`, which throws where this gives None):
      white space around the number, one optional sign, at least one decimal digit,
      and a value that fits a 32-bit signed integer. */
  function ParseInt(s: string): (r: Option<int>)
    ensures r.Some? ==> Int32Min <= r.value <= Int32Max
  {
    var t := Strip(s, IsNumberWhite);
    var negative := |t| > 0 && t[0] == '-';
    var digits := if |t| > 0 && (t[0] == '-' || t[0] == '+') then t[1..] else t;
    if |digits| == 0 || !AllSatisfy(digits, IsDigit) then None
    else
      var magnitude: int := DigitsValue(digits);
      var n := if negative then -magnitude else magnitude;
      if Int32Min <= n <= Int32Max then
        Some(n)
      else None
  }

  /** Decimal rendering of a natural number, the inverse of DigitsValue. */
  function ShowNat(n: nat): (r: string)
    ensures |r| > 0 && AllSatisfy(r, IsDigit)
    ensures DigitsValue(r) == n
  {
    if n < 10 then [DigitChar(n)]
    else
      var prefix := ShowNat(n / 10);
      var r := prefix + [DigitChar(n % 10)];
      assert r[..|r| - 1] == prefix;
      r
  }

  /** Decimal rendering of an integer, with a leading '-' when negative. */
  function ShowInt(n: int): string {
    if n < 0 then "-" + ShowNat(-n) else ShowNat(n)
  }

  /** Every 32-bit integer survives a round trip through its decimal rendering. */
  lemma {:induction false} ParseShowRoundTrip(n: int)
    requires Int32Min <= n <= Int32Max
    ensures ParseInt(ShowInt(n)) == Some(n)
  {
    var s := ShowInt(n);
    var digits := ShowNat(if n < 0 then -n else n);
    assert s[|s| - 1] == digits[|digits| - 1];
    StripFixesStripped(s, IsNumberWhite);
    if n < 0 {
      assert s[1..] == digits;
    }
  }
}

=== FILE: validation.dfy ===
/** The two-phase order validator (WebTestKhoMau/Services/ValidationService.cs):
    a fail-fast structural check in a fixed order, then a per-line stock check
    against one inventory snapshot. */
module Validation {
  import opened Wrappers
  import opened Text
  import opened Model
  import opened Inventory

  datatype Field = PID | OrderID | PatientName | OrderDate | Age | Sex | BloodGroup | Rh
  datatype ItemField = Quantity | ElementID | Volume
  datatype Problem = Missing | Invalid

  /** The validator's messages, tagged by what they report instead of their text.
      Line errors carry the zero-based position of the offending line item. */
  datatype ValidationError =
    | NullRequest
    | HeaderError(field: Field, problem: Problem)
    | LineError(index: nat, itemField: ItemField, problem: Problem)
    | NotInStock(index: nat)
    | InsufficientStock(index: nat, requested: int, available: int)

  const BloodGroups: set<string> := {"A", "B", "AB", "O"}
  const RhFactors: set<string> := {"+", "-"}

  /** Present and, without any trimming, one of `allowed`. */
  predicate IsOneOf(s: Option<string>, allowed: set<string>) {
    s.Some? && s.value in allowed
  }

  /** Present and `int.TryParse` gives a value in [lo, hi]. */
  predicate ParsesBetween(s: Option<string>, lo: int, hi: int) {
    s.Some? && ParseInt(s.value).Some? && lo <= ParseInt(s.value).value <= hi
  }

  // ------------------------------------------------------ phase 1: structure

  /** What phase 1 demands of one line item. */
  predicate ItemWellFormed(item: OrderItem) {
    && !IsBlank(item.quantity)
    && ParsesBetween(item.quantity, 1, Int32Max)
    && !IsBlank(item.elementId)
    && item.volume > 0
  }

  /** The header fields phase 1 demands, in the validator's order. */
  predicate HeaderAccepted(isDate: string -> bool, r: PatientOrderRequest) {
    && !IsBlank(r.pid)
    && !IsBlank(r.orderId)
    && !IsBlank(r.patientName)
    && !IsBlank(r.orderDate) && isDate(r.orderDate.value)
    && !IsBlank(r.age) && ParsesBetween(r.age, 0, 150)
    && !IsBlank(r.sex) && IsOneOf(r.sex, {"M", "F"})
    && (IsBlank(r.bloodGroup) || IsOneOf(r.bloodGroup, BloodGroups))
    && (IsBlank(r.rh) || IsOneOf(r.rh, RhFactors))
  }

  /** What phase 1 demands of a whole order. */
  predicate AcceptedOrder(isDate: string -> bool, r: PatientOrderRequest) {
    && HeaderAccepted(isDate, r)
    && forall k :: 0 <= k < |r.Items()| ==> ItemWellFormed(r.Items()[k])
  }

  /** The four checks of one line item, in the source's order. */
  function CheckItem(k: nat, item: OrderItem): (r: Outcome<ValidationError>)
    ensures r.Pass? <==> ItemWellFormed(item)
    ensures r.Fail? ==> r.error.LineError? && r.error.index == k
  {
    if IsBlank(item.quantity) then Fail(LineError(k, Quantity, Missing))
    else if !ParsesBetween(item.quantity, 1, Int32Max) then Fail(LineError(k, Quantity, Invalid))
    else if IsBlank(item.elementId) then Fail(LineError(k, ElementID, Missing))
    else if item.volume <= 0 then Fail(LineError(k, Volume, Invalid))
    else Pass
  }

  /** The source's loop over the line items from position `i`: the first item
      whose check fails decides the verdict. */
  function FirstFailingLine<T>(xs: seq<T>, i: nat, check: (nat, T) --> Outcome<ValidationError>): (r: Outcome<ValidationError>)
    requires i <= |xs|
    requires forall k :: i <= k < |xs| ==> check.requires(k, xs[k])
    ensures r.Pass? <==> forall k :: i <= k < |xs| ==> check(k, xs[k]).Pass?
    ensures r.Fail? ==>
      exists k :: i <= k < |xs| && r == check(k, xs[k])
        && forall j :: i <= j < k ==> check(j, xs[j]).Pass?
    decreases |xs| - i
  {
    if i == |xs| then Pass
    else
      var head := check(i, xs[i]);
      if head.Fail? then head else FirstFailingLine(xs, i + 1, check)
  }

  /** Phase 1 over the line items. */
  function CheckItems(items: seq<OrderItem>): (r: Outcome<ValidationError>)
    ensures r.Pass? <==> forall k :: 0 <= k < |items| ==> ItemWellFormed(items[k])
    ensures r.Fail? ==>
      exists k :: 0 <= k < |items| && r == CheckItem(k, items[k])
        && forall j :: 0 <= j < k ==> ItemWellFormed(items[j])
  {
    FirstFailingLine(items, 0, CheckItem)
  }

  /** The header checks of ValidatePatientOrder, each reporting its own error. */
  function CheckHeader(isDate: string -> bool, r: PatientOrderRequest): (v: Outcome<ValidationError>)
    ensures v.Pass? <==> HeaderAccepted(isDate, r)
    ensures v.Fail? ==> v.error.HeaderError?
  {
    if IsBlank(r.pid) then Fail(HeaderError(PID, Missing))
    else if IsBlank(r.orderId) then Fail(HeaderError(OrderID, Missing))
    else if IsBlank(r.patientName) then Fail(HeaderError(PatientName, Missing))
    else if IsBlank(r.orderDate) then Fail(HeaderError(OrderDate, Missing))
    else if !isDate(r.orderDate.value) then Fail(HeaderError(OrderDate, Invalid))
    else if IsBlank(r.age) then Fail(HeaderError(Age, Missing))
    else if !ParsesBetween(r.age, 0, 150) then Fail(HeaderError(Age, Invalid))
    else if IsBlank(r.sex) then Fail(HeaderError(Sex, Missing))
    else if r.sex != Some("M") && r.sex != Some("F") then Fail(HeaderError(Sex, Invalid))
    else if !IsBlank(r.bloodGroup) && !IsOneOf(r.bloodGroup, BloodGroups) then Fail(HeaderError(BloodGroup, Invalid))
    else if !IsBlank(r.rh) && !IsOneOf(r.rh, RhFactors) then Fail(HeaderError(Rh, Invalid))
    else Pass
  }

  /** ValidatePatientOrder on a non-null request: the header, then the line
      items when the list is present and non-empty. */
  function CheckStructure(isDate: string -> bool, r: PatientOrderRequest): (v: Outcome<ValidationError>)
    ensures v.Pass? ==> AcceptedOrder(isDate, r)
    ensures v.Fail? ==> v.error.HeaderError? || v.error.LineError?
  {
    var header := CheckHeader(isDate, r);
    if header.Fail? then header
    else if r.listOrder.Some? && |r.listOrder.value| > 0 then CheckItems(r.listOrder.value)
    else Pass
  }

  /** Phase 1 accepts exactly the orders described by AcceptedOrder: in
      particular Age parses to an integer in [0, 150], Sex is exactly "M" or
      "F", BloodGroup and Rh are blank or exactly one of the allowed codes, and
      every line item has a positive quantity, an ElementID and a positive volume. */
  lemma StructureAcceptsExactly(isDate: string -> bool, r: PatientOrderRequest)
    ensures CheckStructure(isDate, r).Pass? <==> AcceptedOrder(isDate, r)
  {
    if AcceptedOrder(isDate, r) && r.listOrder.Some? && |r.listOrder.value| > 0 {
      assert r.Items() == r.listOrder.value;
    }
  }

  /** `ValidatePatientOrder`: a null request is rejected first. */
  function ValidatePatientOrder(isDate: string -> bool, req: Option<PatientOrderRequest>): (v: Outcome<ValidationError>)
    ensures v.Pass? ==> req.Some? && AcceptedOrder(isDate, req.value)
    ensures req.None? ==> v == Fail(NullRequest)
  {
    match req
    case None => Fail(NullRequest)
    case Some(r) => CheckStructure(isDate, r)
  }

  // ---------------------------------------------- the fixed order of checks

  /** One entry of the validator's check table: whether it holds, and the error it reports if not. */
  datatype Check = Check(ok: bool, error: ValidationError)

  /** The error of the first check that fails, or Pass when all hold. */
  function FirstFailure(checks: seq<Check>): Outcome<ValidationError>
    decreases |checks|
  {
    if |checks| == 0 then Pass
    else if !checks[0].ok then Fail(checks[0].error)
    else FirstFailure(checks[1..])
  }

  /** FirstFailure passes exactly when every check holds, and otherwise reports
      the error of a failing check all of whose predecessors hold. */
  lemma {:induction false} FirstFailureSpec(checks: seq<Check>)
    ensures FirstFailure(checks).Pass? <==> forall k :: 0 <= k < |checks| ==> checks[k].ok
    ensures FirstFailure(checks).Fail? ==>
      exists k :: 0 <= k < |checks| && !checks[k].ok && checks[k].error == FirstFailure(checks).error
        && forall j :: 0 <= j < k ==> checks[j].ok
    decreases |checks|
  {
    if |checks| > 0 && checks[0].ok {
      var rest := checks[1..];
      FirstFailureSpec(rest);
      assert forall j :: 1 <= j < |checks| ==> checks[j] == rest[j - 1];
      if FirstFailure(rest).Fail? {
        var k :| 0 <= k < |rest| && !rest[k].ok && rest[k].error == FirstFailure(rest).error
          && (forall j :: 0 <= j < k ==> rest[j].ok);
        assert checks[k + 1] == rest[k];
      }
    }
  }

  lemma FirstFailureCons(c: Check, rest: seq<Check>)
    ensures FirstFailure([c] + rest) == if !c.ok then Fail(c.error) else FirstFailure(rest)
  {
    assert ([c] + rest)[1..] == rest;
  }

  lemma {:induction false} FirstFailureAppend(a: seq<Check>, b: seq<Check>)
    ensures FirstFailure(a + b) == if FirstFailure(a).Fail? then FirstFailure(a) else FirstFailure(b)
    decreases |a|
  {
    if |a| == 0 {
      assert a + b == b;
    } else {
      assert a == [a[0]] + a[1..];
      assert a + b == [a[0]] + (a[1..] + b);
      FirstFailureCons(a[0], a[1..] + b);
      FirstFailureCons(a[0], a[1..]);
      FirstFailureAppend(a[1..], b);
    }
  }

  /** The checks of one line item, in order. */
  function ItemCheckTable(k: nat, item: OrderItem): seq<Check> {
    [Check(!IsBlank(item.quantity), LineError(k, Quantity, Missing))]
    + ([Check(ParsesBetween(item.quantity, 1, Int32Max), LineError(k, Quantity, Invalid))]
    + ([Check(!IsBlank(item.elementId), LineError(k, ElementID, Missing))]
    + [Check(item.volume > 0, LineError(k, Volume, Invalid))]))
  }

  function ItemChecks(items: seq<OrderItem>, i: nat): seq<Check>
    requires i <= |items|
    decreases |items| - i
  {
    if i == |items| then [] else ItemCheckTable(i, items[i]) + ItemChecks(items, i + 1)
  }

  /** The header checks, in the order the validator applies them. */
  function HeaderChecks(isDate: string -> bool, r: PatientOrderRequest): seq<Check> {
    [ Check(!IsBlank(r.pid), HeaderError(PID, Missing)),
      Check(!IsBlank(r.orderId), HeaderError(OrderID, Missing)),
      Check(!IsBlank(r.patientName), HeaderError(PatientName, Missing)),
      Check(!IsBlank(r.orderDate), HeaderError(OrderDate, Missing)),
      Check(r.orderDate.Some? && isDate(r.orderDate.value), HeaderError(OrderDate, Invalid)),
      Check(!IsBlank(r.age), HeaderError(Age, Missing)),
      Check(ParsesBetween(r.age, 0, 150), HeaderError(Age, Invalid)),
      Check(!IsBlank(r.sex), HeaderError(Sex, Missing)),
      Check(IsOneOf(r.sex, {"M", "F"}), HeaderError(Sex, Invalid)),
      Check(IsBlank(r.bloodGroup) || IsOneOf(r.bloodGroup, BloodGroups), HeaderError(BloodGroup, Invalid)),
      Check(IsBlank(r.rh) || IsOneOf(r.rh, RhFactors), HeaderError(Rh, Invalid)) ]
  }

  /** Every structural check, in the order the validator applies them. */
  function StructuralChecks(isDate: string -> bool, r: PatientOrderRequest): seq<Check> {
    HeaderChecks(isDate, r) + ItemChecks(r.Items(), 0)
  }

  lemma {:induction false} CheckItemsIsFirstFailure(items: seq<OrderItem>, i: nat)
    requires i <= |items|
    ensures FirstFailingLine(items, i, CheckItem) == FirstFailure(ItemChecks(items, i))
    decreases |items| - i
  {
    if i < |items| {
      var item := items[i];
      var rest := ItemChecks(items, i + 1);
      var t4 := [Check(item.volume > 0, LineError(i, Volume, Invalid))];
      var t3 := [Check(!IsBlank(item.elementId), LineError(i, ElementID, Missing))] + t4;
      var t2 := [Check(ParsesBetween(item.quantity, 1, Int32Max), LineError(i, Quantity, Invalid))] + t3;
      FirstFailureCons(t4[0], []);
      assert t4 == [t4[0]] + [];
      FirstFailureCons(t3[0], t4);
      FirstFailureCons(t2[0], t3);
      FirstFailureCons(Check(!IsBlank(item.quantity), LineError(i, Quantity, Missing)), t2);
      assert FirstFailure(ItemCheckTable(i, item)) == CheckItem(i, item);
      FirstFailureAppend(ItemCheckTable(i, item), rest);
      CheckItemsIsFirstFailure(items, i + 1);
    }
  }

  lemma FirstFailureStep(checks: seq<Check>, i: nat)
    requires i < |checks|
    ensures FirstFailure(checks[i..]) == if !checks[i].ok then Fail(checks[i].error) else FirstFailure(checks[i + 1..])
  {
    assert checks[i..][1..] == checks[i + 1..];
  }

  /** FirstFailure over eleven checks, written out. */
  lemma FirstFailureOfEleven(t: seq<Check>)
    requires |t| == 11
    ensures FirstFailure(t) ==
      if !t[0].ok then Fail(t[0].error) else if !t[1].ok then Fail(t[1].error)
      else if !t[2].ok then Fail(t[2].error) else if !t[3].ok then Fail(t[3].error)
      else if !t[4].ok then Fail(t[4].error) else if !t[5].ok then Fail(t[5].error)
      else if !t[6].ok then Fail(t[6].error) else if !t[7].ok then Fail(t[7].error)
      else if !t[8].ok then Fail(t[8].error) else if !t[9].ok then Fail(t[9].error)
      else if !t[10].ok then Fail(t[10].error) else Pass
  {
    assert t[11..] == [];
    assert t[0..] == t;
    FirstFailureStep(t, 10);
    FirstFailureStep(t, 9);
    FirstFailureStep(t, 8);
    FirstFailureStep(t, 7);
    FirstFailureStep(t, 6);
    FirstFailureStep(t, 5);
    FirstFailureStep(t, 4);
    FirstFailureStep(t, 3);
    FirstFailureStep(t, 2);
    FirstFailureStep(t, 1);
    FirstFailureStep(t, 0);
  }

  /** The header checks are fail-fast in the table's order. */
  lemma HeaderIsFirstFailure(isDate: string -> bool, r: PatientOrderRequest)
    ensures CheckHeader(isDate, r) == FirstFailure(HeaderChecks(isDate, r))
  {
    FirstFailureOfEleven(HeaderChecks(isDate, r));
  }

  /** Structural validation is fail-fast in a fixed order: its verdict is the
      error of the first failing entry of StructuralChecks, and Pass when none fails. */
  lemma StructureIsFirstFailure(isDate: string -> bool, r: PatientOrderRequest)
    ensures ValidatePatientOrder(isDate, Some(r)) == FirstFailure(StructuralChecks(isDate, r))
  {
    HeaderIsFirstFailure(isDate, r);
    CheckItemsIsFirstFailure(r.Items(), 0);
    FirstFailureAppend(HeaderChecks(isDate, r), ItemChecks(r.Items(), 0));
  }

  // ---------------------------------------------------------- phase 2: stock

  /** A line item passes the stock check when the record the check picks
      exists and holds at least the requested quantity. */
  predicate InStock(inv: seq<InventoryInfo>, bloodGroup: Option<string>, rh: Option<string>, item: OrderItem) {
    var pick := StockPick(inv, bloodGroup, rh, item);
    ParsedQuantity(item).Some? && pick.Some? && pick.value.quantity >= ParsedQuantity(item).value
  }

  /** The stock check of the line item at position `k`. */
  function CheckStockItem(inv: seq<InventoryInfo>, bloodGroup: Option<string>, rh: Option<string>, k: nat, item: OrderItem): (r: Outcome<ValidationError>)
    requires ParsedQuantity(item).Some?
    ensures r.Pass? <==> InStock(inv, bloodGroup, rh, item)
    ensures r == Fail(NotInStock(k)) <==> StockPick(inv, bloodGroup, rh, item).None?
    ensures r.Fail? && !r.error.NotInStock? ==>
      var pick := StockPick(inv, bloodGroup, rh, item);
      pick.Some? && r == Fail(InsufficientStock(k, ParsedQuantity(item).value, pick.value.quantity))
      && pick.value.quantity < ParsedQuantity(item).value
  {
    match StockPick(inv, bloodGroup, rh, item)
    case None => Fail(NotInStock(k))
    case Some(rec) =>
      var requested := ParsedQuantity(item).value;
      if rec.quantity < requested then Fail(InsufficientStock(k, requested, rec.quantity)) else Pass
  }

  /** The stock loop: every item is checked on its own against the same
      snapshot, and the first failing item decides. */
  function CheckStock(inv: seq<InventoryInfo>, bloodGroup: Option<string>, rh: Option<string>, items: seq<OrderItem>): (r: Outcome<ValidationError>)
    requires AllQuantitiesParse(items)
    ensures r.Pass? <==> forall k :: 0 <= k < |items| ==> InStock(inv, bloodGroup, rh, items[k])
    ensures r.Fail? ==>
      exists k :: 0 <= k < |items| && r == CheckStockItem(inv, bloodGroup, rh, k, items[k])
        && forall j :: 0 <= j < k ==> InStock(inv, bloodGroup, rh, items[j])
  {
    FirstFailingLine(items, 0, (k: nat, item: OrderItem) requires ParsedQuantity(item).Some? => CheckStockItem(inv, bloodGroup, rh, k, item))
  }

  /** Phase 1 only lets through line items whose quantity parses, so the
      `int.Parse` of phase 2 and of the deduction cannot fail afterwards. */
  lemma AcceptedQuantitiesParse(isDate: string -> bool, r: PatientOrderRequest)
    requires AcceptedOrder(isDate, r)
    ensures AllQuantitiesParse(r.Items())
  {
    forall k | 0 <= k < |r.Items()|
      ensures ParsedQuantity(r.Items()[k]).Some?
    {
      assert ItemWellFormed(r.Items()[k]);
    }
  }

  /** `ValidatePatientOrderWithInventoryAsync`: phase 1, then the stock loop
      over the line items against one inventory snapshot. */
  function ValidateWithInventory(isDate: string -> bool, inv: seq<InventoryInfo>, req: Option<PatientOrderRequest>): (v: Outcome<ValidationError>)
    ensures v.Pass? ==> ValidatePatientOrder(isDate, req).Pass?
    ensures ValidatePatientOrder(isDate, req).Fail? ==> v == ValidatePatientOrder(isDate, req)
    ensures ValidatePatientOrder(isDate, req).Pass? && v.Fail? ==> v.error.NotInStock? || v.error.InsufficientStock?
    ensures ValidatePatientOrder(isDate, req).Pass? && v.Fail? ==>
      && AllQuantitiesParse(req.value.Items())
      && exists k :: 0 <= k < |req.value.Items()| && v == CheckStockItem(inv, req.value.bloodGroup, req.value.rh, k, req.value.Items()[k])
           && forall j :: 0 <= j < k ==> InStock(inv, req.value.bloodGroup, req.value.rh, req.value.Items()[j])
  {
    var structural := ValidatePatientOrder(isDate, req);
    if structural.Fail? then structural
    else
      var r := req.value;
      StructureAcceptsExactly(isDate, r);
      AcceptedQuantitiesParse(isDate, r);
      if r.listOrder.Some? && |r.listOrder.value| > 0 then
        assert r.Items() == r.listOrder.value;
        CheckStock(inv, r.bloodGroup, r.rh, r.listOrder.value)
      else Pass
  }

  /** An order passes both phases exactly when it is structurally acceptable and
      every one of its line items, checked on its own, is in stock. */
  lemma ValidateWithInventoryAccepts(isDate: string -> bool, inv: seq<InventoryInfo>, req: Option<PatientOrderRequest>)
    ensures ValidateWithInventory(isDate, inv, req).Pass? <==>
      && req.Some? && AcceptedOrder(isDate, req.value)
      && forall k :: 0 <= k < |req.value.Items()| ==> InStock(inv, req.value.bloodGroup, req.value.rh, req.value.Items()[k])
  {
    if req.Some? {
      var r := req.value;
      StructureAcceptsExactly(isDate, r);
      if AcceptedOrder(isDate, r) {
        AcceptedQuantitiesParse(isDate, r);
        if r.listOrder.Some? && |r.listOrder.value| > 0 {
          assert r.Items() == r.listOrder.value;
        }
      }
    }
  }

  // ------------------------------------------------ stock check and deduction

  /** No two line items take from the same record. */
  predicate DistinctMatches(inv: seq<InventoryInfo>, bloodGroup: Option<string>, rh: Option<string>, items: seq<OrderItem>) {
    forall a, b :: 0 <= a < b < |items| && FirstMatchIndex(inv, bloodGroup, rh, items[a]).Some? ==>
      FirstMatchIndex(inv, bloodGroup, rh, items[a]) != FirstMatchIndex(inv, bloodGroup, rh, items[b])
  }

  /** When the stock check has passed every line item, the header names a
      blood group and an Rh factor, every line names an ElementID, and no two
      lines take from the same record, the deduction takes from each record at
      most what that record holds. */
  lemma DistinctLinesDemand(inv: seq<InventoryInfo>, bloodGroup: Option<string>, rh: Option<string>, items: seq<OrderItem>, j: nat)
    requires !IsBlank(bloodGroup) && !IsBlank(rh)
    requires forall k :: 0 <= k < |items| ==> !IsBlank(items[k].elementId) && InStock(inv, bloodGroup, rh, items[k])
    requires DistinctMatches(inv, bloodGroup, rh, items)
    requires j < |inv|
    ensures Demand(inv, bloodGroup, rh, items, j) == 0 || Demand(inv, bloodGroup, rh, items, j) <= inv[j].quantity
  {
    if k :| 0 <= k < |items| && FirstMatchIndex(inv, bloodGroup, rh, items[k]) == Some(j) {
      forall i | 0 <= i < |items| && i != k
        ensures FirstMatchIndex(inv, bloodGroup, rh, items[i]) != Some(j)
      {
        if i < k {
          assert FirstMatchIndex(inv, bloodGroup, rh, items[i]).Some? ==>
            FirstMatchIndex(inv, bloodGroup, rh, items[i]) != FirstMatchIndex(inv, bloodGroup, rh, items[k]);
        } else {
          assert FirstMatchIndex(inv, bloodGroup, rh, items[k]) != FirstMatchIndex(inv, bloodGroup, rh, items[i]);
        }
      }
      DemandOfSingleMatch(inv, bloodGroup, rh, items, j, k);
      StockPickIsFirstMatch(inv, bloodGroup, rh, items[k]);
      assert InStock(inv, bloodGroup, rh, items[k]);
    } else {
      NoDemandWithoutMatch(inv, bloodGroup, rh, items, j);
    }
  }
}

=== FILE: wrappers.dfy ===
/** Plain optional and pass/fail values used throughout the model.
    - Option<T> stands for a nullable reference (a C# `string?`, a nullable list).
    - Outcome<E> is a pass/fail verdict carrying the first error found. */
module Wrappers {

  datatype Option<+T> = None | Some(value: T) {

    /** The wrapped value, or `default` when absent (C#'s `x ?? default`). */
    function GetOr(default: T): T {
      match this
      case Some(v) => v
      case None => default
    }
  }

  datatype Outcome<+E> = Pass | Fail(error: E)
}
